=== FILE: README.md ===
# Job application tracker backend, modelled in Dafny

This project models the service layer of a FastAPI/SQLModel job application
tracker.

- **Applicants** upload resumes. Each resume is parsed into text and stored with its file.
- **Applicants** apply to job listings.
- **Companies** move applications through a fixed status lifecycle.
- **A screening agent** grades each application's qualifications. The service turns those grades into a weighted match score.

The model keeps the services' guard chains, error codes and effects on the database. It proves what they promise:

- which requests succeed;
- which error each failing request gets, and in which order the errors are checked;
- that the schema's uniqueness constraints survive every operation;
- idempotence of withdrawing, screening and manual overrides;
- round trips of the JSON column codec;
- when a score is 0% or 100%;
- how the parser registry resolves a document type.

The database is an immutable `Store`. It holds maps keyed by id for listings, applications, resumes and screens, and the set of ids of stored files. Every operation is a pure function from a store to a result, or to a result plus a new store. HTTP errors are a `Result` with the status code's meaning:

| error | status |
|---|---|
| `NotFound` | 404 |
| `Forbidden` | 403 |
| `BadRequest` | 400 |
| `Conflict` | 409 |
| `Unprocessable` | 422 |
| `Internal` | 500 |

Some things are parameters of the operations:

- the clock (`now`);
- the ids the database would generate;
- what the screening agent returns;
- what a document parser extracts;
- whether the file service and the database commits succeed.

A generated id that is already taken is modelled as a failing commit, which returns a 500.

Modules, one per concern:

| file | module | what it models |
|---|---|---|
| outcomes.dfy | `Outcomes` | `Option`, `Result`, the HTTP errors |
| text.dfy | `Text` | `str.lower`, `str.lstrip` and `str.strip` as the services call them, plus `rstrip` and `rfind`, on which the model of `PurePosixPath.name` and `.suffix` is built |
| ordering.dfy | `Ordering` | `ORDER BY created_at DESC` |
| models.dfy | `Models` | the records, enums and field constraints of `models.py`, and the store with its schema invariants |
| reason_codec.dfy | `ReasonCodec` | the JSON column type `ScreeningReasonListType` |
| scoring.dfy | `Scoring` | the weighted score of a screen |
| applications.dfy | `Applications` | `JobApplicationService` |
| screens.dfy | `Screens` | `JobApplicationScreeningService` |
| registry.dfy | `ParserRegistry` | `ParserRegistry` and the three parsers registered at import time |
| parse_file.dfy | `DocumentParsing` | `ParserApplicationService.parse_file` and `Path(...).suffix` |
| resumes.dfy | `Resumes` | `ResumeApplicationService` |

`Models.Valid` is a precondition of some operations: screening, manual results and scoring. These operations use `.first()` on the screens of an application, which is well defined only because of the unique constraint on `application_id`. The database enforces the constraints that `Models.Valid` collects in every state. The lemmas `…PreservesValid` / `…PreservesInvariants` show that each operation keeps them.

Two operations set an application's status to UNDER_REVIEW directly, whatever its current status, even ACCEPTED or WITHDRAWN: screening and saving manual results. They bypass the status transition table. The model does the same.

## Model

| member | source | states |
|---|---|---|
| Applications.TransitionTableShape | backend/app/services/applications/application.py:24-42 | A status is terminal exactly when the transition table has no entry for it. Every allowed move goes strictly forward in the pipeline, so the lifecycle has no cycles. REJECTED can be reached from every non-terminal status. WITHDRAWN cannot be reached through the table at all. |
| Applications.UpdateStatus | backend/app/services/applications/application.py:166-210 | It succeeds exactly when the application exists and either (a) the requested status is the current one, or (b) the move is in the table and the requester is a superuser or owns the listing. On success the application is stored with the new status and every other field unchanged; `updated_at` is refreshed when the status really changes. A missing application is a 404, checked first. Among other failures, a move in the table refused for lack of authority is a 403; everything else is a 400. |
| Applications.UpdateToCurrentStatusIsNoOp | backend/app/services/applications/application.py:183-184 | Requesting the current status returns the application and leaves the store untouched. This holds even for a terminal application and an unauthorised requester. |
| Applications.UpdateStatusErrors | backend/app/services/applications/application.py:186-208 | Terminal applications refuse every other status with 400. A move outside the table is a 400 whoever asks. A 403 comes only for a legal move, and exactly when the requester neither is a superuser nor owns the listing. |
| Applications.WithdrawnUnreachableByUpdate | backend/app/services/applications/application.py:183-200 | `update_status` can answer WITHDRAWN successfully only for an application that is already withdrawn, and then the store is unchanged. |
| Applications.UpdateStatusPreservesValid | backend/app/services/applications/application.py:166-210 | A successful status change keeps every schema constraint, including one application per listing and applicant. |
| Applications.PersistStatusChange | backend/app/services/applications/application.py:241-259 | The application comes back with the requested status and a fresh `updated_at`, and is stored under its id. Every other field, every other application and every other table stay as they were. |
| Applications.Withdraw | backend/app/services/applications/application.py:212-239 | Succeeds exactly for the applicant or a superuser on an existing application (404 otherwise, or 403). The result is WITHDRAWN with nothing else changed. `updated_at` is refreshed only when it was not already withdrawn. |
| Applications.WithdrawIdempotent | backend/app/services/applications/application.py:234-235 | Withdrawing a second time, at any later time, returns the same application and changes nothing. |
| Applications.Submit | backend/app/services/applications/application.py:47-112 | Succeeds exactly when all of these hold: the requester is an applicant or a superuser; the listing exists and is active; the resume, if given, exists and belongs to the requester (or the requester is a superuser); the requester has not applied to this listing before; the new id is free. The new application is SUBMITTED, owned by the requester, and is the only row added. |
| Applications.SubmitGuardOrder | backend/app/services/applications/application.py:56-95 | The submission errors come in the source's order: 403 for the role, 404 and 400 for the listing, 404 and 403 for the resume, then 409. The 409 comes exactly when an earlier application exists. |
| Applications.SubmitPreservesValid | backend/app/models.py:271-281 | A successful submission keeps the unique (listing, applicant) constraint and the other schema invariants. |
| Applications.ListApplications | backend/app/services/applications/application.py:114-136 | Lists every application the requester may see and nothing else, each once, newest first. A superuser sees all applications, a company those on its listings, anyone else their own. |
| Applications.GetApplication | backend/app/services/applications/application.py:138-164 | Returns the stored application exactly when it exists and the requester is a superuser, its applicant, or the company owning its listing. Otherwise 404 for a missing application, 403 for an existing one. |
| Applications.VisibleCanBeFetched | backend/app/services/applications/application.py:114-164 | Every application the list shows can also be fetched by the same requester. |
| Models.ScreenOf | backend/app/models.py:389-397 | Finds an application's screen, under the one-screen-per-application constraint. No screen is returned exactly when none refers to the application; a returned screen is stored and refers to it. |
| ReasonCodec.StatusFromName | backend/app/models.py:333-339 | Only the four enum values are accepted, and each accepted name is the value of the status it yields. |
| ReasonCodec.StatusNameRoundTrip | backend/app/models.py:333-339 | Reading a status's JSON value gives the status back. |
| ReasonCodec.Dump | backend/app/models.py:342-346 | A dumped reason has exactly the keys `status` and `reason`. |
| ReasonCodec.Load | backend/app/models.py:342-346 | A dictionary validates exactly when it has a string `status` naming an enum member and a string `reason` of at most 1000 characters. Every validated reason satisfies the field constraint. |
| ReasonCodec.DecodeAll | backend/app/models.py:363-369 | A list reads back exactly when every element does, and then element by element in order. |
| ReasonCodec.BindParam | backend/app/models.py:355-361 | NULL is written as an empty list; otherwise one dictionary per element. |
| ReasonCodec.ResultValue | backend/app/models.py:363-369 | NULL reads as an empty list; otherwise one reason per element. |
| ReasonCodec.RoundTrip | backend/app/models.py:349-369 | Writing valid reasons to the column and reading them back yields the same reasons in the same order. |
| ReasonCodec.ReverseRoundTrip | backend/app/models.py:349-369 | Reading dictionaries of the dumped shape and writing the reasons again yields the same dictionaries. |
| ReasonCodec.BindParamKeepsDicts | backend/app/models.py:358-360 | Dictionaries already in the list are written unchanged. |
| ReasonCodec.ResultValueKeepsReasons | backend/app/models.py:366-368 | Reasons already in the list are read back unchanged. |
| Scoring.Points | backend/app/services/screens/application.py:39-44 | No status earns more than the maximum; only HIGHLY_QUALIFIED earns it and only NOT_QUALIFIED earns nothing. |
| Scoring.PointsFollowRating | backend/app/services/screens/application.py:39-44 | The table ranks the statuses strictly: NOT_QUALIFIED (0) below MEETS (2) below QUALIFIED (3) below HIGHLY_QUALIFIED (4), so a better rating always earns more points. |
| Scoring.MaxStatusPointsIsTheMaximum | backend/app/services/screens/application.py:39-45 | The maximum per-reason points is the largest value of the points table, and some status attains it. |
| Scoring.ScoreReasons | backend/app/services/screens/application.py:379-392 | An empty list scores (0, 0). Earned points are the sum of each reason's table points times the weight. Attainable points are the number of reasons times the maximum points times the weight, and earned points never exceed them. |
| Scoring.RaiseNeverLowersEarned | backend/app/services/screens/application.py:388-390 | Raising the status of one reason in a list never lowers the points the list earns. |
| Scoring.EarnedBounds | backend/app/services/screens/application.py:388-391 | No list earns more than the maximum points per reason. |
| Scoring.FullMarksIff | backend/app/services/screens/application.py:388-391 | A list earns every attainable point exactly when every reason is HIGHLY_QUALIFIED. |
| Scoring.NoMarksIff | backend/app/services/screens/application.py:388-391 | A list earns nothing exactly when every reason is NOT_QUALIFIED. |
| Scoring.CalculateScore | backend/app/services/screens/application.py:403-426 | The minimum subscore is twice the points earned over the minimum qualifications, and the preferred subscore is once the points earned over the preferred ones; each maximum is that weight times the list's length times 4. The totals add up. The percentage lies between 0 and 100: it is 0 when nothing is attainable, otherwise earned over attainable points times 100. |
| Scoring.Percentage | backend/app/services/screens/application.py:414-416 | The ratio of part to whole, as a percentage between 0 and 100. It is 100 exactly when part equals whole, and 0 exactly when part is 0. |
| Scoring.RaiseNeverLowersMatch | backend/app/services/screens/application.py:403-416 | Raising the status of one minimum or one preferred qualification never lowers the match percentage. |
| Scoring.PerfectMatchIff | backend/app/services/screens/application.py:403-426 | A screen scores 100% exactly when it evaluates at least one qualification and rates all of them HIGHLY_QUALIFIED. |
| Scoring.NoMatchIff | backend/app/services/screens/application.py:403-426 | A screen scores 0% exactly when it rates no qualification above NOT_QUALIFIED, which includes evaluating none. |
| Screens.ScreenApplication | backend/app/services/screens/application.py:53-169 | Succeeds exactly when every access check passes and either a screen already exists or the agent returned a payload (and the new id is free). An existing screen is returned with the store unchanged. Otherwise the scored screen is stored and the application becomes UNDER_REVIEW. Once the guards pass and no screen exists, a failed agent call, an unexpected payload or a taken id is a 500. |
| Screens.Rescore | backend/app/services/screens/application.py:394-401 | The intended score store: only the screen's score changes, and it becomes the screen's current match percentage, between 0 and 100. |
| Screens.RescoreAsWritten | backend/app/services/screens/application.py:394-401 | Storing the score as written succeeds only if the screen table declares a `score` field. Its failure is a 500. |
| Screens.RescoreAsWrittenAlwaysFails | backend/app/models.py:372-409 | The screen table declares no `score` field, so storing the score as written fails for every screen, whereas the intended store records the match percentage. |
| Screens.ScreenGuardOrder | backend/app/services/screens/application.py:62-106 | The screening errors come in the source's order: 404 application, 404 listing, 403 access, 400 no resume, 404 resume, 403 someone else's resume. |
| Screens.ExistingScreenIgnoresAgent | backend/app/services/screens/application.py:108-114 | Once an application has a screen, the agent's answer, the id offered and the time do not affect the outcome. |
| Screens.ScreenApplicationPreservesValid | backend/app/models.py:389-397 | Screening keeps one screen per application and the other schema invariants. |
| Screens.ScreenApplicationIdempotent | backend/app/services/screens/application.py:108-114 | After a successful screening, screening again with any agent answer returns the same screen and changes nothing. |
| Screens.Merge | backend/app/services/screens/application.py:216-220 | A list left out of the update (`None`) keeps its stored value; a given list, even an empty one, replaces it. |
| Screens.SaveManualResults | backend/app/services/screens/application.py:171-240 | Succeeds exactly when the application and listing exist, the requester is a superuser or the listing's company, at least one list is given, and a new screen's id is free. Lists left out keep their stored value. The score is recomputed and the application becomes UNDER_REVIEW. Failures, in order: 404 for a missing application or listing, 403 for anyone but a superuser or the listing's company, 400 when neither list is given, and 500 for a taken id. |
| Screens.SaveManualResultsPreservesValid | backend/app/models.py:389-397 | A manual update keeps one screen per application and the other schema invariants. |
| Screens.SaveManualResultsIdempotent | backend/app/services/screens/application.py:201-229 | Saving the same manual results again returns the same screen and changes nothing. |
| Screens.GetScreen | backend/app/services/screens/application.py:280-317 | Returns the stored screen exactly when it and its application exist and the requester may access that application. It answers 404 when either is missing, 403 otherwise. |
| Screens.ScoreApplication | backend/app/services/screens/application.py:319-377 | Succeeds exactly when the application and listing exist, the requester may access them, and a screen exists. It returns the breakdown of that screen and stores its percentage. Only an unauthorised requester on an existing application and listing gets a 403. Every other failure is a 404, including an application that has not been screened. |
| Screens.ScoreAfterScreeningIsStored | backend/app/services/screens/application.py:150-151 | A freshly created screen already carries its score: scoring it right away changes nothing and reports the same percentage. |
| Screens.ListScreens | backend/app/services/screens/application.py:242-278 | Lists every screen the requester may see, each once, newest first. A superuser sees all screens, a company those on its listings, anyone else those on their own applications. |
| Screens.VisibleScreenCanBeFetched | backend/app/services/screens/application.py:242-317 | Every screen the list shows can also be fetched by the same requester. |
| ParserRegistry.NormalizeExtension | backend/app/services/parsers/registry.py:48 | A normalised extension has no capital letters and does not start with a dot. |
| ParserRegistry.NormalizeIgnoresCase | backend/app/services/parsers/registry.py:48 | Normalising ignores letter case, and normalising twice is normalising once. |
| ParserRegistry.NonEmpty | backend/app/services/parsers/registry.py:48 | Keeps exactly the given extensions that are non-empty strings, in order: the first non-empty one given comes first. |
| ParserRegistry.NonEmptyAppend | backend/app/services/parsers/registry.py:48 | Filtering the concatenation of two lists is the concatenation of the filtered lists, so the comprehension keeps the order of the given extensions. |
| ParserRegistry.AssignAll | backend/app/services/parsers/registry.py:53-58 | Every listed key maps to the value. Other keys keep their entries, and no other key is added. |
| ParserRegistry.Register | backend/app/services/parsers/registry.py:42-62 | Registration fails, as the `ValueError`, exactly when every given extension is the empty string. Without MIME types (the default `None`, or an empty list) the MIME table is left exactly as it was. |
| ParserRegistry.RegisterExtensions | backend/app/services/parsers/registry.py:48-54 | After registration every non-empty extension, normalised, maps to the parser. Earlier registrations of the same key are overwritten. Every other extension keeps its parser. |
| ParserRegistry.RegisterMimeTypes | backend/app/services/parsers/registry.py:56-58 | After registration every given MIME type, lower-cased, maps to the first normalised extension. Every other MIME type keeps its mapping. |
| ParserRegistry.Resolve | backend/app/services/parsers/registry.py:73-91 | A parser is found only in the extension table. When the given extension is non-empty and registered after normalising, it decides. Otherwise a parser is found exactly when the lower-cased MIME type maps to a non-empty extension that is registered, and that extension's parser is returned; `None` is the `UnsupportedDocumentTypeError`. |
| ParserRegistry.ExtensionPreferred | backend/app/services/parsers/registry.py:81-84 | A registered extension decides the parser, whatever the MIME type says. |
| ParserRegistry.MimeFallback | backend/app/services/parsers/registry.py:84-87 | A missing, empty or unknown extension leaves the choice to the MIME type alone. |
| ParserRegistry.ResolveIgnoresCase | backend/app/services/parsers/registry.py:82-85 | Resolution ignores letter case in both the extension and the MIME type. |
| ParserRegistry.ExtensionResolvesAfterRegister | backend/app/services/parsers/registry.py:42-91 | After registering, each given non-empty extension resolves to the parser, whatever MIME type comes with it. |
| ParserRegistry.MimeTypeResolvesAfterRegister | backend/app/services/parsers/registry.py:42-91 | After registering, each given non-empty MIME type resolves to the parser on its own, provided the first extension is not made only of dots. |
| ParserRegistry.DefaultRegistrations | backend/app/services/parsers/registry.py:42-62 | Registering the PDF, DOCX and plain-text parsers in turn on an empty registry yields exactly the default tables. |
| ParserRegistry.SingleRegistration | backend/app/services/parsers/registry.py:48-58 | Registering one lower-case, dot-free extension with one MIME type adds exactly those two entries. |
| ParserRegistry.DefaultRegistryResolves | backend/app/services/parsers/registry.py:73-91 | With the default parsers: an upper-case or dotted extension still finds its parser; a registered extension beats a MIME type that names another parser; an unknown extension falls back to the MIME type; and with neither known, nothing resolves. |
| DocumentParsing.BaseName | backend/app/services/parsers/application.py:28 | The base name contains no slash. |
| DocumentParsing.Extension | backend/app/services/parsers/application.py:28 | The extension contains neither a dot nor a slash. |
| DocumentParsing.ExtensionIsATail | backend/app/services/parsers/application.py:28 | A non-empty extension is the tail of the file name (trailing slashes removed) after a dot, and that dot is not at the start of the base name. |
| DocumentParsing.BaseNameOfJoin | backend/app/services/parsers/application.py:28 | Appending a dot and a slash-free tail to a name gives a base name made of the name's last component, the dot and the tail. |
| DocumentParsing.ExtensionOfJoin | backend/app/services/parsers/application.py:28 | The extension of `stem.ext` is `ext` whenever `ext` is non-empty and free of dots and slashes and `stem` is non-empty and does not end in a slash. |
| DocumentParsing.ExtensionExamples | backend/app/services/parsers/application.py:28 | Only the last suffix counts, and its letter case is kept. |
| DocumentParsing.HiddenFileHasNoExtension | backend/app/services/parsers/application.py:28 | A hidden file such as `.bashrc` has no extension. |
| DocumentParsing.TrailingDotHasNoExtension | backend/app/services/parsers/application.py:28 | A name ending in a dot has no extension. |
| DocumentParsing.DotlessNameHasNoExtension | backend/app/services/parsers/application.py:28 | A file name without a dot has no extension. |
| DocumentParsing.ParseFile | backend/app/services/parsers/application.py:26-53 | An empty upload is a 400. Otherwise the call succeeds exactly when a parser resolves and extracts text; it returns that text unchanged with the given file name and content type. |
| DocumentParsing.ParseFileErrors | backend/app/services/parsers/application.py:37-47 | An unsupported type is a 400, a parser error a 422, and any other parser failure a 500. |
| DocumentParsing.NamedFileUsesRegisteredParser | backend/app/services/parsers/application.py:26-53 | A file named with a registered extension is parsed by that extension's parser, whatever content type the client claims. |
| Text.LStrip | backend/app/services/parsers/registry.py:48 | The result is a suffix of the input that does not start with the stripped character. Everything removed was that character. |
| Text.RStrip | backend/app/services/parsers/application.py:28 | The result is a prefix of the input that does not end with the stripped character. Everything removed was that character. |
| Text.StripEmptyIffBlank | backend/app/services/resumes/application.py:32 | Stripping leaves nothing exactly when every character is whitespace. |
| Text.RFind | backend/app/services/parsers/application.py:28 | Returns the index of the last occurrence, or -1 when there is none. |
| Text.RFindSkipsTail | backend/app/services/parsers/application.py:28 | Appending characters other than the one sought does not move its last occurrence. |
| Ordering.SortNewestFirst | backend/app/services/resumes/application.py:69 | Every row appears exactly once, ordered by descending creation time. |
| Resumes.StoreResume | backend/app/services/resumes/application.py:43-65 | Succeeds exactly when the file service stored a new file and the row could be saved. The new resume belongs to the uploader, points at that file and holds the parsed text. A failure is a 500 that changes no row; at most the stored file remains. |
| Resumes.UploadCompensation | backend/app/services/resumes/application.py:51-65 | When saving the row fails, the answer is a 500. A successful compensating deletion leaves no trace; a failed one leaves only the stored file. |
| Resumes.StoreResumePreservesInvariants | backend/app/models.py:117-121 | Storing a resume keeps one resume per file, the other schema constraints, and the foreign keys. |
| Resumes.UploadResume | backend/app/services/resumes/application.py:29-65 | Parse errors pass through with nothing stored. Text that is empty or only whitespace is a 422 with nothing stored. Otherwise the unstripped text is stored. |
| Resumes.UploadResumePreservesInvariants | backend/app/services/resumes/application.py:29-65 | Every upload outcome, successful or not, keeps the schema constraints and foreign keys. |
| Resumes.ListResumes | backend/app/services/resumes/application.py:67-72 | Lists every resume of the requester (all resumes for a superuser), each once, newest first. |
| Resumes.GetResume | backend/app/services/resumes/application.py:74-83 | Returns the stored resume exactly to its owner or a superuser. Otherwise 404 for a missing resume, 403 for an existing one. |
| Resumes.ListedResumeCanBeFetched | backend/app/services/resumes/application.py:67-83 | Every resume the list shows can also be fetched by the same requester. |
| Resumes.StoredResumeCanBeFetched | backend/app/services/resumes/application.py:45-55 | After a successful upload the uploader can fetch the new resume. |
| Resumes.Detach | backend/app/models.py:144 | Applications that named the resume lose the reference. All others stay as they were, and no application is added or removed. |
| Resumes.DeleteResume | backend/app/services/resumes/application.py:85-109 | Succeeds exactly for the owner or a superuser when the row deletion commits; a failure changes nothing and answers 404, 403 or 500 in that order. On success the resume is gone, applications that named it lose the reference, and its file is removed when the file service succeeds. A failure of the file service is ignored. |
| Resumes.DeleteResumePreservesInvariants | backend/app/services/resumes/application.py:85-109 | Deleting keeps the schema constraints and the foreign keys. No application is left pointing at the deleted resume, and the file removed belonged to that resume alone. |
| Resumes.DeletedResumeIsNotFound | backend/app/services/resumes/application.py:87-89 | Once a resume is deleted, fetching it is a 404 for everyone. |

## Findings

| source | as written | input that shows it | evidently intended | confidence | as-written member | corrected member |
|---|---|---|---|---|---|---|
| backend/app/services/screens/application.py:400 | `_update_screen_score` assigns `screen.score`, but `JobApplicationScreen` (backend/app/models.py:372-409) declares no `score` field, so the model's validation refuses the assignment | any screen, e.g. the first screening of an application whose agent run succeeded; it reaches line 155 and fails there | a `score` column on the screen table that stores the match percentage | medium, not executed (depends on the table model refusing undeclared attributes, as pydantic v2 models do by default) | Screens.RescoreAsWritten, Screens.RescoreAsWrittenAlwaysFails | Screens.Rescore, Screens.ScoreAfterScreeningIsStored |

## Left out

- Scoring.CalculateScore: the percentage is kept exact. The source rounds it to two decimals with `round(…, 2)`, a floating-point operation. So the stated equalities, including the 0% and 100% characterisations, hold for the exact ratio and not for the rounded value.
- Text.Lower: folds only the ASCII letters A–Z. Python's `str.lower` is Unicode-aware. Extensions and MIME types are ASCII in practice.
- DocumentParsing.Extension: follows `PurePosixPath.suffix` as it behaves up to Python 3.13: the text after the last dot of the base name, when that dot is neither its first nor its last character. Not modelled: the normalisation of `.` path components, and Python 3.14's acceptance of a trailing dot.
- The bytes of an upload are modelled only as far as "empty or not". The `seek`/`read(1)` peek is not modelled, and the parser is an opaque function of the parser and the bytes.
- `get_parser` instantiates the resolved parser class. The model returns the class (a value of the registry's parser type) and leaves instantiation out, because it has no observable effect.
- The PDF, DOCX and text parsers' text extraction (`parsers.py`) is third-party library code. It is represented by the `parse` parameter.
- The screening agent is an LLM call. It is a parameter: a failure, an unexpected payload, or the two reason lists. The prompt built for it and the `print` calls are not modelled.
- Clock, UUID generation and the outcome of every commit and file-service call are parameters. Commit failures are modelled only where the outcome is observable to the model: an id collision in `submit_application`, `screen_application` and `save_manual_results` (a new screen's id already taken), and the resume row commits. The 500 paths of `_persist_status_change` and `score_application` after a failing commit are not modelled; they leave the database as it was.
- Screens.Rescore: `models.py` declares no `score` field, and so no column, on `JobApplicationScreen`, yet `_update_screen_score` assigns `screen.score` (backend/app/services/screens/application.py:400). As written, that assignment is refused, and screening, saving manual results and scoring all end in a 500 once they reach it (see Findings). The rest of the model follows the evident intent instead: a `score` column that holds the percentage.
- Deleting a resume sets `resume_id` to NULL on the applications that named it. This is the ORM's default for the one-to-many relationship without cascade, so it relies on SQLAlchemy's behaviour and not on code in the service.
- The file service (`services/files/application.py`) is not part of this model. Its `upload_file` and `delete_file` are outcome parameters. Its own owner check on deletion is covered only by the `fileDeleted` outcome.
- The field constraints on users and files in `models.py` (password lengths 8–40, a non-negative file size) are not modelled. No operation modelled here creates or updates users or file records; the file service's records appear only as the set of stored file ids.
- Concurrency between requests is not modelled: each operation runs alone on one database state. The race between the duplicate-application check and the commit is therefore out of scope.
- Job listings, users, authentication, routes, storage back-ends and migrations are not part of this model. They are callers or infrastructure around the services modelled here.

=== FILE: applications.dfy ===
/** `JobApplicationService`: submitting, listing and reading applications, and
    the status lifecycle (company-driven transitions and applicant withdrawal). */
module Applications {
  import opened Outcomes
  import opened Models
  import Ordering

  /** `_STATUS_TRANSITIONS`: the moves a company may make from each
      non-terminal status. */
  const StatusTransitions: map<ApplicationStatus, set<ApplicationStatus>> := map[
    Submitted := {UnderReview, Rejected},
    UnderReview := {Interview, Rejected},
    Interview := {Accepted, Rejected}]

  /** `_TERMINAL_STATUSES`. */
  const TerminalStatuses: set<ApplicationStatus> := {Accepted, Rejected, Withdrawn}

  /** `_STATUS_TRANSITIONS.get(status, set())`. */
  function AllowedTargets(from: ApplicationStatus): set<ApplicationStatus> {
    if from in StatusTransitions then StatusTransitions[from] else {}
  }

  /** How far along the pipeline a status lies. */
  function Stage(s: ApplicationStatus): nat {
    match s
    case Submitted => 0
    case UnderReview => 1
    case Interview => 2
    case Accepted => 3
    case Rejected => 3
    case Withdrawn => 3
  }

  /** The table and the terminal set agree, and every move goes forward, so
      the lifecycle has no cycles; rejection is open from every non-terminal
      status and withdrawal from none. */
  lemma TransitionTableShape()
    ensures forall s :: s in TerminalStatuses <==> s !in StatusTransitions
    ensures forall s, t :: t in AllowedTargets(s) ==> Stage(s) < Stage(t)
    ensures forall s :: s !in TerminalStatuses ==> Rejected in AllowedTargets(s)
    ensures forall s :: Withdrawn !in AllowedTargets(s)
  {
    assert StatusTransitions.Keys == {Submitted, UnderReview, Interview};
    forall s ensures s in TerminalStatuses <==> s !in StatusTransitions {
      match s
      case Submitted =>
      case UnderReview =>
      case Interview =>
      case Accepted =>
      case Rejected =>
      case Withdrawn =>
    }
  }

  /** The requester may move the application along its lifecycle. */
  predicate MayChangeStatus(u: User, listing: Option<JobListing>) {
    u.isSuperuser || OwnsListing(u, listing)
  }

  /** `_persist_status_change`: the application comes back with the new
      status and a fresh `updated_at` and is stored under its id; no other
      field, row or table changes. */
  function PersistStatusChange(s: Store, a: JobApplication, newStatus: ApplicationStatus, now: Timestamp)
    : (r: (Store, JobApplication))
    ensures r.1.status == newStatus && r.1.updatedAt == now
    ensures r.1.(status := a.status, updatedAt := a.updatedAt) == a
    ensures r.0.applications.Keys == s.applications.Keys + {a.id}
    ensures r.0.applications[a.id] == r.1
    ensures forall k :: k in s.applications && k != a.id ==> r.0.applications[k] == s.applications[k]
    ensures r.0.(applications := s.applications) == s
  {
    var changed := a.(status := newStatus, updatedAt := now);
    (s.(applications := s.applications[a.id := changed]), changed)
  }

  /** `update_status`. */
  function UpdateStatus(
    s: Store, applicationId: Id, requester: User, newStatus: ApplicationStatus, now: Timestamp)
    : (r: Result<(Store, JobApplication)>)
    requires KeysMatch(s)
    ensures r.Ok? <==>
      && applicationId in s.applications
      && var a := s.applications[applicationId];
         || a.status == newStatus
         || (newStatus in AllowedTargets(a.status) && MayChangeStatus(requester, ListingOf(s, a)))
    ensures r.Ok? ==>
      && var a := s.applications[applicationId];
      && r.value.1.status == newStatus
      && r.value.1 == a.(status := newStatus, updatedAt := r.value.1.updatedAt)
      && (a.status != newStatus ==> r.value.1.updatedAt == now)
      && r.value.0 == s.(applications := s.applications[applicationId := r.value.1])
    ensures applicationId !in s.applications ==> r == Err(NotFound)
    ensures r.Err? ==>
      r.error ==
      (if applicationId !in s.applications then NotFound
       else if newStatus in AllowedTargets(s.applications[applicationId].status) then Forbidden
       else BadRequest)
  {
    if applicationId !in s.applications then Err(NotFound)
    else
      var a := s.applications[applicationId];
      if a.status == newStatus then
        assert s.applications[applicationId := a] == s.applications;
        Ok((s, a))
      else if a.status in TerminalStatuses then Err(BadRequest)
      else if newStatus !in AllowedTargets(a.status) then Err(BadRequest)
      else if !MayChangeStatus(requester, ListingOf(s, a)) then Err(Forbidden)
      else Ok(PersistStatusChange(s, a, newStatus, now))
  }

  /** Asking for the current status returns the application and store as they
      are, before any terminal or authorization check. */
  lemma UpdateToCurrentStatusIsNoOp(s: Store, applicationId: Id, requester: User, now: Timestamp)
    requires KeysMatch(s) && applicationId in s.applications
    ensures var a := s.applications[applicationId];
            UpdateStatus(s, applicationId, requester, a.status, now) == Ok((s, a))
  {
    var a := s.applications[applicationId];
    assert s.applications[applicationId := a] == s.applications;
  }

  /** The status-change errors come in a fixed order: a terminal application
      refuses every other status, an illegal move is refused whoever asks, and
      only a legal move is refused for lack of authority. */
  lemma UpdateStatusErrors(
    s: Store, applicationId: Id, requester: User, newStatus: ApplicationStatus, now: Timestamp)
    requires KeysMatch(s) && applicationId in s.applications
    requires newStatus != s.applications[applicationId].status
    ensures var a := s.applications[applicationId];
            var r := UpdateStatus(s, applicationId, requester, newStatus, now);
            && (a.status in TerminalStatuses ==> r == Err(BadRequest))
            && (newStatus !in AllowedTargets(a.status) ==> r == Err(BadRequest))
            && (newStatus in AllowedTargets(a.status) ==>
                  (r == Err(Forbidden) <==> !MayChangeStatus(requester, ListingOf(s, a))))
  {
  }

  /** `update_status` never withdraws: it only "reaches" WITHDRAWN as the
      no-op on an application that already is withdrawn. */
  lemma WithdrawnUnreachableByUpdate(s: Store, applicationId: Id, requester: User, now: Timestamp)
    requires KeysMatch(s)
    requires UpdateStatus(s, applicationId, requester, Withdrawn, now).Ok?
    ensures s.applications[applicationId].status == Withdrawn
    ensures UpdateStatus(s, applicationId, requester, Withdrawn, now).value.0 == s
  {
    TransitionTableShape();
    var a := s.applications[applicationId];
    assert s.applications[applicationId := a] == s.applications;
  }

  lemma UpdateStatusPreservesValid(
    s: Store, applicationId: Id, requester: User, newStatus: ApplicationStatus, now: Timestamp)
    requires Valid(s)
    requires UpdateStatus(s, applicationId, requester, newStatus, now).Ok?
    ensures Valid(UpdateStatus(s, applicationId, requester, newStatus, now).value.0)
  {
    var s' := UpdateStatus(s, applicationId, requester, newStatus, now).value.0;
    var apps := s'.applications;
    forall i, j | i in apps && j in apps && apps[i].listingId == apps[j].listingId
                  && apps[i].applicantId == apps[j].applicantId
      ensures i == j
    {
      assert apps[i].listingId == s.applications[i].listingId;
      assert apps[j].listingId == s.applications[j].listingId;
    }
  }

  /** `withdraw_application`. */
  function Withdraw(s: Store, applicationId: Id, requester: User, now: Timestamp)
    : (r: Result<(Store, JobApplication)>)
    requires KeysMatch(s)
    ensures r.Ok? <==>
      && applicationId in s.applications
      && (requester.isSuperuser || s.applications[applicationId].applicantId == requester.id)
    ensures r.Err? ==> r.error == (if applicationId in s.applications then Forbidden else NotFound)
    ensures r.Ok? ==>
      && var a := s.applications[applicationId];
      && r.value.1 == a.(status := Withdrawn, updatedAt := r.value.1.updatedAt)
      && (a.status != Withdrawn ==> r.value.1.updatedAt == now)
      && r.value.0 == s.(applications := s.applications[applicationId := r.value.1])
  {
    if applicationId !in s.applications then Err(NotFound)
    else
      var a := s.applications[applicationId];
      if !requester.isSuperuser && a.applicantId != requester.id then Err(Forbidden)
      else if a.status == Withdrawn then
        assert s.applications[applicationId := a] == s.applications;
        Ok((s, a))
      else Ok(PersistStatusChange(s, a, Withdrawn, now))
  }

  /** Withdrawing twice is withdrawing once: the second call changes nothing,
      even at a later time. */
  lemma WithdrawIdempotent(s: Store, applicationId: Id, requester: User, now: Timestamp, later: Timestamp)
    requires KeysMatch(s)
    requires Withdraw(s, applicationId, requester, now).Ok?
    ensures var (s1, a1) := Withdraw(s, applicationId, requester, now).value;
            KeysMatch(s1) && Withdraw(s1, applicationId, requester, later) == Ok((s1, a1))
  {
    var (s1, a1) := Withdraw(s, applicationId, requester, now).value;
    assert s1.applications[applicationId] == a1;
    assert s1.applications[applicationId := a1] == s1.applications;
  }

  /** Applicants and superusers may apply; companies may not. */
  predicate MaySubmit(u: User) {
    u.isSuperuser || u.role == Applicant
  }

  /** No resume was given, or the given one exists and the requester may use it. */
  predicate ResumeUsable(s: Store, u: User, resumeId: Option<Id>) {
    resumeId.None?
    || (resumeId.value in s.resumes && (u.isSuperuser || s.resumes[resumeId.value].userId == u.id))
  }

  predicate AlreadyApplied(s: Store, listingId: Id, applicantId: Id) {
    exists k :: k in s.applications
      && s.applications[k].listingId == listingId
      && s.applications[k].applicantId == applicantId
  }

  /** `submit_application`: the guard chain, then a new SUBMITTED application
      owned by the requester. `newId` is the primary key the record gets; if it
      is taken, the commit fails. */
  function Submit(
    s: Store, requester: User, listingId: Id, resumeId: Option<Id>, coverLetter: Option<string>,
    newId: Id, now: Timestamp)
    : (r: Result<(Store, JobApplication)>)
    ensures r.Ok? <==>
      && MaySubmit(requester)
      && listingId in s.listings && s.listings[listingId].isActive
      && ResumeUsable(s, requester, resumeId)
      && !AlreadyApplied(s, listingId, requester.id)
      && newId !in s.applications
    ensures r.Ok? ==>
      && r.value.1 == NewApplication(newId, listingId, requester.id, resumeId, coverLetter, now)
      && r.value.1.applicantId == requester.id && r.value.1.status == Submitted
      && r.value.0 == s.(applications := s.applications[newId := r.value.1])
  {
    if !MaySubmit(requester) then Err(Forbidden)
    else if listingId !in s.listings then Err(NotFound)
    else if !s.listings[listingId].isActive then Err(BadRequest)
    else if resumeId.Some? && resumeId.value !in s.resumes then Err(NotFound)
    else if resumeId.Some? && !requester.isSuperuser && s.resumes[resumeId.value].userId != requester.id then
      Err(Forbidden)
    else if AlreadyApplied(s, listingId, requester.id) then Err(Conflict)
    else if newId in s.applications then Err(Internal)
    else
      var a := NewApplication(newId, listingId, requester.id, resumeId, coverLetter, now);
      Ok((s.(applications := s.applications[newId := a]), a))
  }

  /** The submission guards in their order: each error is raised exactly when
      every earlier guard has passed and its own fails. */
  lemma SubmitGuardOrder(
    s: Store, requester: User, listingId: Id, resumeId: Option<Id>, coverLetter: Option<string>,
    newId: Id, now: Timestamp)
    ensures var r := Submit(s, requester, listingId, resumeId, coverLetter, newId, now);
      && (!MaySubmit(requester) ==> r == Err(Forbidden))
      && (MaySubmit(requester) && listingId !in s.listings ==> r == Err(NotFound))
      && (MaySubmit(requester) && listingId in s.listings ==>
            && (!s.listings[listingId].isActive ==> r == Err(BadRequest))
            && (s.listings[listingId].isActive ==>
                  && (resumeId.Some? && resumeId.value !in s.resumes ==> r == Err(NotFound))
                  && ((resumeId.Some? && resumeId.value in s.resumes && !requester.isSuperuser
                       && s.resumes[resumeId.value].userId != requester.id) ==> r == Err(Forbidden))
                  && (ResumeUsable(s, requester, resumeId) ==>
                        (r == Err(Conflict) <==> AlreadyApplied(s, listingId, requester.id)))))
  {
  }

  /** A successful submission keeps every schema constraint, in particular one
      application per listing and applicant. */
  lemma SubmitPreservesValid(
    s: Store, requester: User, listingId: Id, resumeId: Option<Id>, coverLetter: Option<string>,
    newId: Id, now: Timestamp)
    requires Valid(s)
    requires Submit(s, requester, listingId, resumeId, coverLetter, newId, now).Ok?
    ensures Valid(Submit(s, requester, listingId, resumeId, coverLetter, newId, now).value.0)
  {
    var s' := Submit(s, requester, listingId, resumeId, coverLetter, newId, now).value.0;
    var apps := s'.applications;
    forall i, j | i in apps && j in apps && apps[i].listingId == apps[j].listingId
                  && apps[i].applicantId == apps[j].applicantId
      ensures i == j
    {
      if i != newId && j != newId {
        assert apps[i] == s.applications[i] && apps[j] == s.applications[j];
      }
    }
  }

  /** The applications a requester may list. */
  function Visible(s: Store, u: User): set<JobApplication> {
    if u.isSuperuser then s.applications.Values
    else if u.role == Company then
      set a | a in s.applications.Values && OwnsListing(u, ListingOf(s, a))
    else
      set a | a in s.applications.Values && a.applicantId == u.id
  }

  function CreatedAt(a: JobApplication): Timestamp {
    a.createdAt
  }

  /** `list_applications`: the visible applications, each once, newest first. */
  method ListApplications(s: Store, requester: User) returns (r: seq<JobApplication>)
    ensures forall a :: a in r <==> a in Visible(s, requester)
    ensures |r| == |Visible(s, requester)|
    ensures Ordering.NewestFirst(r, CreatedAt)
  {
    r := Ordering.SortNewestFirst(Visible(s, requester), CreatedAt);
    Ordering.SortedRowsAreTheRows(r, Visible(s, requester));
  }

  /** `get_application`. */
  function GetApplication(s: Store, applicationId: Id, requester: User): (r: Result<JobApplication>)
    ensures r.Ok? <==>
      && applicationId in s.applications
      && var a := s.applications[applicationId];
         MayAccessApplication(requester, a, ListingOf(s, a))
    ensures r.Ok? ==> r.value == s.applications[applicationId]
    ensures r.Err? ==> r.error == (if applicationId in s.applications then Forbidden else NotFound)
  {
    if applicationId !in s.applications then Err(NotFound)
    else
      var a := s.applications[applicationId];
      if requester.isSuperuser then Ok(a)
      else if a.applicantId == requester.id then Ok(a)
      else if OwnsListing(requester, ListingOf(s, a)) then Ok(a)
      else Err(Forbidden)
  }

  /** Whatever the list shows can also be opened one by one. */
  lemma VisibleCanBeFetched(s: Store, requester: User, a: JobApplication)
    requires KeysMatch(s)
    requires a in Visible(s, requester)
    ensures GetApplication(s, a.id, requester) == Ok(a)
  {
    var k :| k in s.applications && s.applications[k] == a;
  }
}

=== FILE: models.dfy ===
/** The records of the tracker (`app/models.py`) and the database that holds
    them, as an immutable store of tables keyed by id. */
module Models {
  import opened Outcomes

  /** Database identifiers (UUIDs in the source); only equality matters. */
  type Id = nat

  /** `created_at`/`updated_at` values; only their order matters. */
  type Timestamp = int

  datatype Role = Company | Applicant

  /** The requester as the services see it. */
  datatype User = User(id: Id, role: Role, isSuperuser: bool)

  /** Lifecycle states of a job application. */
  datatype ApplicationStatus =
    | Submitted | UnderReview | Interview | Accepted | Rejected | Withdrawn

  /** How well one qualification is met. */
  datatype ReasonStatus = HighlyQualified | Qualified | Meets | NotQualified

  /** The longest explanation a screening reason may carry. */
  const MaxReasonLength: nat := 1000

  /** The evaluation of one qualification. */
  datatype ScreeningReason = ScreeningReason(status: ReasonStatus, reason: string) {
    /** The field constraint every constructed instance satisfies. */
    predicate Valid() {
      |reason| <= MaxReasonLength
    }
  }

  predicate AllValid(rs: seq<ScreeningReason>) {
    forall i :: 0 <= i < |rs| ==> rs[i].Valid()
  }

  datatype JobListing = JobListing(
    id: Id,
    companyId: Id,
    isActive: bool,
    minimumQualifications: seq<string>,
    preferredQualifications: seq<string>)

  datatype Resume = Resume(
    id: Id,
    userId: Id,
    fileId: Id,
    textContent: string,
    createdAt: Timestamp)

  datatype JobApplication = JobApplication(
    id: Id,
    listingId: Id,
    applicantId: Id,
    resumeId: Option<Id>,
    coverLetter: Option<string>,
    status: ApplicationStatus,
    createdAt: Timestamp,
    updatedAt: Timestamp)

  /** A stored screening; `score` is the match percentage last computed. */
  datatype Screen = Screen(
    id: Id,
    applicationId: Id,
    minimumQualifications: seq<ScreeningReason>,
    preferredQualifications: seq<ScreeningReason>,
    score: Option<real>,
    createdAt: Timestamp)

  /** The database: one table per record type, keyed by primary key, and the
      ids of the files held by the file service. */
  datatype Store = Store(
    listings: map<Id, JobListing>,
    applications: map<Id, JobApplication>,
    resumes: map<Id, Resume>,
    screens: map<Id, Screen>,
    files: set<Id>)

  /** A new application as constructed from the submission payload: the
      status column defaults to SUBMITTED. */
  function NewApplication(
    id: Id, listingId: Id, applicantId: Id, resumeId: Option<Id>,
    coverLetter: Option<string>, now: Timestamp): (a: JobApplication)
    ensures a.status == Submitted
    ensures a.id == id && a.listingId == listingId && a.applicantId == applicantId
    ensures a.resumeId == resumeId && a.coverLetter == coverLetter
    ensures a.createdAt == now && a.updatedAt == now
  {
    JobApplication(id, listingId, applicantId, resumeId, coverLetter, Submitted, now, now)
  }

  /** Every row is stored under its own primary key. */
  ghost predicate KeysMatch(s: Store) {
    && (forall k :: k in s.listings ==> s.listings[k].id == k)
    && (forall k :: k in s.applications ==> s.applications[k].id == k)
    && (forall k :: k in s.resumes ==> s.resumes[k].id == k)
    && (forall k :: k in s.screens ==> s.screens[k].id == k)
  }

  /** `uq_job_application_listing_applicant`: one application per listing and applicant. */
  ghost predicate OneApplicationPerApplicant(apps: map<Id, JobApplication>) {
    forall i, j ::
      (i in apps && j in apps
       && apps[i].listingId == apps[j].listingId
       && apps[i].applicantId == apps[j].applicantId) ==> i == j
  }

  /** `uq_job_application_screen_application`: one screen per application. */
  ghost predicate OneScreenPerApplication(screens: map<Id, Screen>) {
    forall i, j ::
      (i in screens && j in screens
       && screens[i].applicationId == screens[j].applicationId) ==> i == j
  }

  /** `resume.file_id` is unique: no two resumes share a stored file. */
  ghost predicate OneResumePerFile(resumes: map<Id, Resume>) {
    forall i, j ::
      (i in resumes && j in resumes && resumes[i].fileId == resumes[j].fileId) ==> i == j
  }

  /** The constraints the database schema enforces in every state. */
  ghost predicate Valid(s: Store) {
    && KeysMatch(s)
    && OneApplicationPerApplicant(s.applications)
    && OneScreenPerApplication(s.screens)
    && OneResumePerFile(s.resumes)
  }

  /** The foreign keys of the schema point at existing rows. */
  ghost predicate ForeignKeysHold(s: Store) {
    && (forall k :: k in s.applications ==> s.applications[k].listingId in s.listings)
    && (forall k :: k in s.applications && s.applications[k].resumeId.Some? ==>
                     s.applications[k].resumeId.value in s.resumes)
    && (forall k :: k in s.screens ==> s.screens[k].applicationId in s.applications)
    && (forall k :: k in s.resumes ==> s.resumes[k].fileId in s.files)
  }

  /** The screen stored for an application (`... .where(application_id == ...).first()`). */
  function ScreenOf(s: Store, applicationId: Id): (r: Option<Screen>)
    requires OneScreenPerApplication(s.screens)
    ensures r.None? <==> forall k :: k in s.screens ==> s.screens[k].applicationId != applicationId
    ensures r.Some? ==> r.value in s.screens.Values && r.value.applicationId == applicationId
  {
    if exists k :: k in s.screens && s.screens[k].applicationId == applicationId then
      var k :| k in s.screens && s.screens[k].applicationId == applicationId;
      Some(s.screens[k])
    else
      None
  }

  /** The listing an application was submitted to, if it still exists. */
  function ListingOf(s: Store, a: JobApplication): Option<JobListing> {
    if a.listingId in s.listings then Some(s.listings[a.listingId]) else None
  }

  /** The requester is the company that posted `listing` (when it exists). */
  predicate OwnsListing(u: User, listing: Option<JobListing>) {
    listing.Some? && listing.value.companyId == u.id
  }

  /** Who may see an application and what hangs off it: a superuser, the
      applicant, or the company that posted the listing. */
  predicate MayAccessApplication(u: User, a: JobApplication, listing: Option<JobListing>) {
    u.isSuperuser || a.applicantId == u.id || OwnsListing(u, listing)
  }
}

=== FILE: ordering.dfy ===
/** The "ORDER BY created_at DESC" the list endpoints apply, over rows of any
    record type and a timestamp extracted by `key`. Rows with equal timestamps
    may come out in any order, as with the database. */
module Ordering {

  ghost predicate NewestFirst<T>(xs: seq<T>, key: T -> int) {
    forall i, j :: 0 <= i < j < |xs| ==> key(xs[i]) >= key(xs[j])
  }

  /** Insert `x` into a newest-first sequence, keeping it newest first. */
  function InsertNewest<T>(xs: seq<T>, x: T, key: T -> int): (r: seq<T>)
    requires NewestFirst(xs, key)
    ensures NewestFirst(r, key)
    ensures multiset(r) == multiset(xs) + multiset{x}
    ensures forall y :: y in r ==> y in xs || y == x
  {
    if xs == [] then [x]
    else if key(x) >= key(xs[0]) then
      assert forall y :: y in xs ==> key(y) <= key(xs[0]) by { NoneNewerThanHead(xs, key); }
      [x] + xs
    else
      var rest := InsertNewest(xs[1..], x, key);
      assert xs == [xs[0]] + xs[1..];
      NoneNewerThanHead(xs, key);
      assert forall y :: y in rest ==> key(y) <= key(xs[0]);
      Prepend(xs[0], rest, key);
      [xs[0]] + rest
  }

  lemma NoneNewerThanHead<T>(xs: seq<T>, key: T -> int)
    requires xs != [] && NewestFirst(xs, key)
    ensures forall y :: y in xs ==> key(y) <= key(xs[0])
  {
    forall y | y in xs ensures key(y) <= key(xs[0]) {
      var i :| 0 <= i < |xs| && xs[i] == y;
    }
  }

  lemma Prepend<T>(h: T, xs: seq<T>, key: T -> int)
    requires NewestFirst(xs, key)
    requires forall y :: y in xs ==> key(y) <= key(h)
    ensures NewestFirst([h] + xs, key)
  {
    var r := [h] + xs;
    forall i, j | 0 <= i < j < |r| ensures key(r[i]) >= key(r[j]) {
      if i == 0 {
        assert r[j] == xs[j - 1];
        assert r[j] in xs;
      } else {
        assert r[i] == xs[i - 1] && r[j] == xs[j - 1];
      }
    }
  }

  /** Every row of `rows`, each exactly once, newest first. */
  method SortNewestFirst<T(==)>(rows: set<T>, key: T -> int) returns (r: seq<T>)
    ensures NewestFirst(r, key)
    ensures multiset(r) == multiset(rows)
  {
    r := [];
    var pending := rows;
    while pending != {}
      invariant pending <= rows
      invariant NewestFirst(r, key)
      invariant multiset(r) == multiset(rows - pending)
      decreases pending
    {
      var x :| x in pending;
      r := InsertNewest(r, x, key);
      assert rows - (pending - {x}) == (rows - pending) + {x};
      pending := pending - {x};
    }
    assert rows - pending == rows;
  }

  lemma SortedRowsAreTheRows<T>(r: seq<T>, rows: set<T>)
    requires multiset(r) == multiset(rows)
    ensures forall x :: x in r <==> x in rows
    ensures |r| == |rows|
  {
    assert |r| == |multiset(r)|;
    forall x ensures x in r <==> x in rows {
      assert x in r <==> x in multiset(r);
    }
  }
}

=== FILE: outcomes.dfy ===
/** Failure-carrying values shared by every service of the tracker: an optional
    value, the HTTP error statuses the services raise, and a result that is
    either a value or one of those errors. */
module Outcomes {

  datatype Option<+T> = None | Some(value: T)

  /** The HTTP statuses the services raise as `HTTPException`s. */
  datatype HttpError =
    | BadRequest      // 400
    | Forbidden       // 403
    | NotFound        // 404
    | Conflict        // 409
    | Unprocessable   // 422
    | Internal        // 500

  /** A service answer: the value returned, or the error raised. */
  datatype Result<+T> = Ok(value: T) | Err(error: HttpError)
}

=== FILE: parse_file.dfy ===
/** `DocumentParsing`: turning an uploaded file into text. The extension is
    taken from the file name, the registry picks a parser, and the parser's
    outcome is mapped onto an HTTP error or a parsed document. Parsers are
    opaque: `parse` stands for whatever text extraction a parser performs. */
module DocumentParsing {
  import opened Outcomes
  import opened Text
  import opened ParserRegistry

  newtype byte = x: int | 0 <= x < 256

  /** What the client sent: the optional file name and content type of the
      multipart part, and the bytes of the file. */
  datatype Upload = Upload(filename: Option<string>, contentType: Option<string>, content: seq<byte>)

  /** One run of a parser: the extracted text, a `DocumentParserError`, or
      any other exception. */
  datatype ParseRun = Parsed(text: string) | ParserFailed | Crashed

  datatype ParsedDocument = ParsedDocument(filename: string, contentType: Option<string>, text: string)

  /** The last component of a POSIX path (`PurePosixPath(p).name`), trailing
      slashes ignored. */
  function BaseName(path: string): (r: string)
    ensures forall i :: 0 <= i < |r| ==> r[i] != '/'
    ensures r == [] || r[|r| - 1] != '/'
  {
    var trimmed := RStrip(path, '/');
    var slash := RFind(trimmed, '/');
    trimmed[slash + 1..]
  }

  /** `Path(filename).suffix.lstrip(".")`: the text after the last dot of the
      base name, provided the dot is neither its first nor its last
      character; otherwise the empty string. */
  function Extension(filename: string): (r: string)
    ensures forall i :: 0 <= i < |r| ==> r[i] != '.' && r[i] != '/'
  {
    var name := BaseName(filename);
    var dot := RFind(name, '.');
    if 0 < dot < |name| - 1 then name[dot + 1..] else ""
  }

  /** A non-empty extension is the tail of the file name, trailing slashes
      removed, after a dot; something other than a slash precedes that dot. */
  lemma {:induction false} ExtensionIsATail(filename: string)
    requires Extension(filename) != ""
    ensures var e := Extension(filename);
      var path := RStrip(filename, '/');
      && |e| + 2 <= |path|
      && path[|path| - |e| - 1] == '.'
      && path[|path| - |e| - 2] != '/'
      && path[|path| - |e|..] == e
  {
    var e := Extension(filename);
    var path := RStrip(filename, '/');
    var name := BaseName(filename);
    var slash := RFind(path, '/');
    var dot := RFind(name, '.');
    assert name == path[slash + 1..];
    assert e == name[dot + 1..];
    assert path[|path| - |e|..] == e;
    assert path[|path| - |e| - 1] == name[dot];
    assert path[|path| - |e| - 2] == name[dot - 1];
  }

  /** Appending a dot and a slash-free tail keeps the stem's last component
      in front of the new base name. */
  lemma {:induction false} BaseNameOfJoin(stem: string, ext: string)
    requires stem != [] && stem[|stem| - 1] != '/'
    requires forall i :: 0 <= i < |ext| ==> ext[i] != '/'
    ensures BaseName(stem + "." + ext) == stem[RFind(stem, '/') + 1..] + "." + ext
  {
    var filename := stem + "." + ext;
    assert filename == stem + ("." + ext);
    assert filename[|filename| - 1] != '/';
    assert RStrip(filename, '/') == filename;
    var slash := RFind(stem, '/');
    assert forall j :: 0 <= j < |"." + ext| ==> ("." + ext)[j] != '/';
    RFindSkipsTail(stem, "." + ext, '/');
    assert filename[slash + 1..] == stem[slash + 1..] + "." + ext;
  }

  /** Conversely, a dot-free, slash-free tail after a dot is the extension,
      as long as the dot does not start the base name. */
  lemma {:induction false} ExtensionOfJoin(stem: string, ext: string)
    requires stem != [] && stem[|stem| - 1] != '/'
    requires ext != [] && forall i :: 0 <= i < |ext| ==> ext[i] != '.' && ext[i] != '/'
    ensures Extension(stem + "." + ext) == ext
  {
    BaseNameOfJoin(stem, ext);
    var head := stem[RFind(stem, '/') + 1..] + ".";
    var name := head + ext;
    assert BaseName(stem + "." + ext) == name;
    RFindSkipsTail(head, ext, '.');
    assert RFind(name, '.') == |head| - 1;
    assert name[|head|..] == ext;
  }

  /** Only the last suffix counts, and a name is taken as it is spelled. */
  lemma ExtensionExamples()
    ensures Extension("resume.PDF") == "PDF"
    ensures Extension("archive.tar.gz") == "gz"
  {
    ExtensionOfJoin("resume", "PDF");
    assert "resume" + "." + "PDF" == "resume.PDF";
    ExtensionOfJoin("archive.tar", "gz");
    assert "archive.tar" + "." + "gz" == "archive.tar.gz";
  }

  /** A name without slashes is its own base name. */
  lemma BaseNameOfPlainName(name: string)
    requires forall j :: 0 <= j < |name| ==> name[j] != '/'
    ensures BaseName(name) == name
  {
    assert RStrip(name, '/') == name;
  }

  /** A hidden file (`.bashrc`) has no extension. */
  lemma {:induction false} HiddenFileHasNoExtension(rest: string)
    requires forall j :: 0 <= j < |rest| ==> rest[j] != '/' && rest[j] != '.'
    ensures Extension("." + rest) == ""
  {
    var name := "." + rest;
    BaseNameOfPlainName(name);
    RFindSkipsTail(".", rest, '.');
  }

  /** A name ending in a dot has no extension. */
  lemma {:induction false} TrailingDotHasNoExtension(name: string)
    requires name != [] && name[|name| - 1] == '.'
    requires forall j :: 0 <= j < |name| ==> name[j] != '/'
    ensures Extension(name) == ""
  {
    BaseNameOfPlainName(name);
    assert RFind(name, '.') == |name| - 1;
  }

  /** A file name without a dot has no extension. */
  lemma {:induction false} DotlessNameHasNoExtension(filename: string)
    requires forall j :: 0 <= j < |filename| ==> filename[j] != '.'
    ensures Extension(filename) == ""
  {
    var name := BaseName(filename);
    var trimmed := RStrip(filename, '/');
    assert name == trimmed[RFind(trimmed, '/') + 1..];
    assert forall j :: 0 <= j < |name| ==> name[j] != '.';
  }

  /** `ParserApplicationService.parse_file`: an empty upload is a 400 before
      any lookup, an unsupported type a 400, a `DocumentParserError` a 422 and
      any other parser failure a 500; otherwise the text is returned as the
      parser produced it, under the given file name (`""` when absent). */
  function ParseFile<P>(reg: Registry<P>, parse: (P, seq<byte>) -> ParseRun, upload: Upload)
    : (r: Result<ParsedDocument>)
    ensures upload.content == [] ==> r == Err(BadRequest)
    ensures r.Ok? <==>
      && upload.content != []
      && var p := Resolve(reg, Some(Extension(FileName(upload))), upload.contentType);
         p.Some? && parse(p.value, upload.content).Parsed?
    ensures r.Ok? ==>
      && r.value.filename == FileName(upload)
      && r.value.contentType == upload.contentType
      && r.value.text == parse(Resolve(reg, Some(Extension(FileName(upload))), upload.contentType).value, upload.content).text
  {
    if upload.content == [] then Err(BadRequest)
    else
      match Resolve(reg, Some(Extension(FileName(upload))), upload.contentType)
      case None => Err(BadRequest)
      case Some(parser) =>
        match parse(parser, upload.content)
        case Parsed(text) => Ok(ParsedDocument(FileName(upload), upload.contentType, text))
        case ParserFailed => Err(Unprocessable)
        case Crashed => Err(Internal)
  }

  /** `file.filename or ""`. */
  function FileName(upload: Upload): string {
    if upload.filename.Some? then upload.filename.value else ""
  }

  /** The error codes, in the order the checks run. */
  lemma ParseFileErrors<P>(reg: Registry<P>, parse: (P, seq<byte>) -> ParseRun, upload: Upload)
    ensures var r := ParseFile(reg, parse, upload);
      var p := Resolve(reg, Some(Extension(FileName(upload))), upload.contentType);
      && (upload.content != [] && p.None? ==> r == Err(BadRequest))
      && (upload.content != [] && p.Some? && parse(p.value, upload.content).ParserFailed? ==> r == Err(Unprocessable))
      && (upload.content != [] && p.Some? && parse(p.value, upload.content).Crashed? ==> r == Err(Internal))
  {
    var r := ParseFile(reg, parse, upload);
    var p := Resolve(reg, Some(Extension(FileName(upload))), upload.contentType);
    if upload.content != [] {
      if p.None? {
        assert r == Err(BadRequest);
      } else {
        var run := parse(p.value, upload.content);
        if run.ParserFailed? {
          assert r == Err(Unprocessable);
        } else if run.Crashed? {
          assert r == Err(Internal);
        }
      }
    }
  }

  /** A file named like a registered type is parsed by that type's parser
      whatever content type the client claims. */
  lemma {:induction false} NamedFileUsesRegisteredParser<P>(
    reg: Registry<P>, parse: (P, seq<byte>) -> ParseRun, upload: Upload, stem: string, ext: string)
    requires upload.content != []
    requires upload.filename == Some(stem + "." + ext)
    requires stem != [] && stem[|stem| - 1] != '/'
    requires ext != [] && forall i :: 0 <= i < |ext| ==> ext[i] != '.' && ext[i] != '/'
    requires NormalizeExtension(ext) in reg.byExtension
    ensures var run := parse(reg.byExtension[NormalizeExtension(ext)], upload.content);
      ParseFile(reg, parse, upload) ==
        match run
        case Parsed(text) => Ok(ParsedDocument(stem + "." + ext, upload.contentType, text))
        case ParserFailed => Err(Unprocessable)
        case Crashed => Err(Internal)
  {
    ExtensionOfJoin(stem, ext);
    ExtensionPreferred(reg, ext, upload.contentType);
  }
}

=== FILE: reason_codec.dfy ===
/** `ScreeningReasonListType`: the column type that stores a list of screening
    reasons as JSON. Writing turns each reason into a dictionary (leaving
    dictionaries as they are); reading turns each dictionary back into a
    validated reason (leaving reasons as they are). */
module ReasonCodec {
  import opened Outcomes
  import opened Models

  /** JSON values as the database driver hands them over. */
  datatype Json =
    | JNull
    | JBool(b: bool)
    | JInt(i: int)
    | JString(s: string)
    | JArray(items: seq<Json>)
    | JObject(fields: map<string, Json>)

  type Dict = map<string, Json>

  /** One element of the Python list: a model instance or a plain dictionary. */
  datatype Entry = Reason(r: ScreeningReason) | Raw(d: Dict)

  /** The JSON value of each status (the enum's string value). */
  function StatusName(s: ReasonStatus): string {
    match s
    case HighlyQualified => "HIGHLY_QUALIFIED"
    case Qualified => "QUALIFIED"
    case Meets => "MEETS"
    case NotQualified => "NOT_QUALIFIED"
  }

  /** Enum validation of a status string. */
  function StatusFromName(name: string): (r: Option<ReasonStatus>)
    ensures r.Some? ==> StatusName(r.value) == name
  {
    if name == "HIGHLY_QUALIFIED" then Some(HighlyQualified)
    else if name == "QUALIFIED" then Some(Qualified)
    else if name == "MEETS" then Some(Meets)
    else if name == "NOT_QUALIFIED" then Some(NotQualified)
    else None
  }

  lemma StatusNameRoundTrip(s: ReasonStatus)
    ensures StatusFromName(StatusName(s)) == Some(s)
  {
  }

  /** `reason.model_dump()`, as stored in the JSON column. */
  function Dump(r: ScreeningReason): (d: Dict)
    ensures d.Keys == {"status", "reason"}
  {
    map["status" := JString(StatusName(r.status)), "reason" := JString(r.reason)]
  }

  /** `ScreeningReason(**d)`: validation of a dictionary. Both fields must be
      present as strings, the status must name a member of the enum and the
      reason may not exceed the length limit; other keys are ignored. `None`
      stands for the validation error raised. */
  function Load(d: Dict): (r: Option<ScreeningReason>)
    ensures r.Some? ==> r.value.Valid()
    ensures r.Some? <==>
      && "status" in d && d["status"].JString? && StatusFromName(d["status"].s).Some?
      && "reason" in d && d["reason"].JString? && |d["reason"].s| <= MaxReasonLength
  {
    if "status" in d && d["status"].JString? && "reason" in d && d["reason"].JString? then
      match StatusFromName(d["status"].s)
      case None => None
      case Some(status) =>
        var reason := d["reason"].s;
        if |reason| <= MaxReasonLength then Some(ScreeningReason(status, reason)) else None
    else None
  }

  function EncodeEntry(e: Entry): Dict {
    match e
    case Reason(r) => Dump(r)
    case Raw(d) => d
  }

  function DecodeEntry(e: Entry): Option<ScreeningReason> {
    match e
    case Reason(r) => Some(r)
    case Raw(d) => Load(d)
  }

  function EncodeAll(xs: seq<Entry>): (ds: seq<Dict>)
    ensures |ds| == |xs|
    ensures forall i :: 0 <= i < |xs| ==> ds[i] == EncodeEntry(xs[i])
  {
    if xs == [] then [] else [EncodeEntry(xs[0])] + EncodeAll(xs[1..])
  }

  function DecodeAll(xs: seq<Entry>): (r: Option<seq<ScreeningReason>>)
    ensures r.Some? <==> forall i :: 0 <= i < |xs| ==> DecodeEntry(xs[i]).Some?
    ensures r.Some? ==> |r.value| == |xs|
    ensures r.Some? ==> forall i :: 0 <= i < |xs| ==> DecodeEntry(xs[i]) == Some(r.value[i])
  {
    if xs == [] then Some([])
    else
      match DecodeEntry(xs[0])
      case None => None
      case Some(first) =>
        match DecodeAll(xs[1..])
        case None =>
          assert forall i :: 1 <= i < |xs| ==> xs[i] == xs[1..][i - 1];
          None
        case Some(rest) => Some([first] + rest)
  }

  /** `process_bind_param`: the JSON written to the column. */
  function BindParam(value: Option<seq<Entry>>): (ds: seq<Dict>)
    ensures value.None? ==> ds == []
    ensures value.Some? ==> |ds| == |value.value|
  {
    match value
    case None => []
    case Some(xs) => EncodeAll(xs)
  }

  /** `process_result_value`: the reasons read back; `None` when an element
      fails validation. */
  function ResultValue(value: Option<seq<Entry>>): (r: Option<seq<ScreeningReason>>)
    ensures value.None? ==> r == Some([])
    ensures value.Some? && r.Some? ==> |r.value| == |value.value|
  {
    match value
    case None => Some([])
    case Some(xs) => DecodeAll(xs)
  }

  /** Wrap model instances as list elements. */
  function Reasons(rs: seq<ScreeningReason>): (xs: seq<Entry>)
    ensures |xs| == |rs|
    ensures forall i :: 0 <= i < |rs| ==> xs[i] == Reason(rs[i])
  {
    seq(|rs|, i requires 0 <= i < |rs| => Reason(rs[i]))
  }

  /** Wrap dictionaries, as the JSON column hands them back. */
  function Raws(ds: seq<Dict>): (xs: seq<Entry>)
    ensures |xs| == |ds|
    ensures forall i :: 0 <= i < |ds| ==> xs[i] == Raw(ds[i])
  {
    seq(|ds|, i requires 0 <= i < |ds| => Raw(ds[i]))
  }

  /** Writing valid reasons and reading them back yields the same reasons,
      with the same statuses and texts in the same order. */
  lemma RoundTrip(rs: seq<ScreeningReason>)
    requires AllValid(rs)
    ensures ResultValue(Some(Raws(BindParam(Some(Reasons(rs)))))) == Some(rs)
  {
    var stored := Raws(BindParam(Some(Reasons(rs))));
    forall i | 0 <= i < |rs| ensures DecodeEntry(stored[i]) == Some(rs[i]) {
      StatusNameRoundTrip(rs[i].status);
    }
    var r := ResultValue(Some(stored));
    assert r.value == rs;
  }

  /** A dictionary in the shape `Dump` produces. */
  predicate Canonical(d: Dict) {
    d.Keys == {"status", "reason"} && Load(d).Some?
  }

  /** Reading canonical dictionaries and writing the reasons back gives the
      same dictionaries. */
  lemma ReverseRoundTrip(ds: seq<Dict>)
    requires forall i :: 0 <= i < |ds| ==> Canonical(ds[i])
    ensures ResultValue(Some(Raws(ds))).Some?
    ensures BindParam(Some(Reasons(ResultValue(Some(Raws(ds))).value))) == ds
  {
    var rs := ResultValue(Some(Raws(ds))).value;
    forall i | 0 <= i < |ds| ensures Dump(rs[i]) == ds[i] {
      assert Load(ds[i]) == Some(rs[i]);
      assert Dump(rs[i]).Keys == ds[i].Keys;
    }
  }

  /** Dictionaries pass through writing untouched. */
  lemma BindParamKeepsDicts(ds: seq<Dict>)
    ensures BindParam(Some(Raws(ds))) == ds
  {
  }

  /** Model instances pass through reading untouched. */
  lemma ResultValueKeepsReasons(rs: seq<ScreeningReason>)
    ensures ResultValue(Some(Reasons(rs))) == Some(rs)
  {
    var r := ResultValue(Some(Reasons(rs)));
    assert r.value == rs;
  }
}

=== FILE: registry.dfy ===
/** `ParserRegistry`: parsers registered under file extensions and MIME types,
    and the lookup that picks one for an uploaded document. A parser is any
    value of the type parameter `P` (the parser class in the source). */
module ParserRegistry {
  import opened Outcomes
  import opened Text

  datatype Registry<P> = Registry(byExtension: map<string, P>, mimeToExtension: map<string, string>)

  function Empty<P>(): Registry<P> {
    Registry(map[], map[])
  }

  /** `ext.lower().lstrip(".")`. */
  function NormalizeExtension(ext: string): (r: string)
    ensures r == [] || r[0] != '.'
    ensures forall i :: 0 <= i < |r| ==> !IsUpperAscii(r[i])
  {
    LStrip(Lower(ext), '.')
  }

  /** Normalising ignores letter case and is idempotent. */
  lemma NormalizeIgnoresCase(ext: string)
    ensures NormalizeExtension(Lower(ext)) == NormalizeExtension(ext)
    ensures NormalizeExtension(NormalizeExtension(ext)) == NormalizeExtension(ext)
  {
    LowerIdempotent(ext);
    var n := NormalizeExtension(ext);
    LowerOfLowercase(n);
    LStripNothing(n, '.');
  }

  /** The extensions given as non-empty strings, in order: the first of them
      comes first. */
  function NonEmpty(exts: seq<string>): (r: seq<string>)
    ensures forall x :: x in r <==> x in exts && x != ""
    ensures |r| <= |exts|
    ensures forall i :: 0 <= i < |exts| && exts[i] != "" && (forall j :: 0 <= j < i ==> exts[j] == "") ==>
      r != [] && r[0] == exts[i]
  {
    if exts == [] then []
    else if exts[0] == "" then NonEmpty(exts[1..])
    else [exts[0]] + NonEmpty(exts[1..])
  }

  /** Filtering distributes over concatenation, so together with its effect
      on a single extension (`NonEmptySingle`) it keeps the given order. */
  lemma {:induction false} NonEmptyAppend(a: seq<string>, b: seq<string>)
    ensures NonEmpty(a + b) == NonEmpty(a) + NonEmpty(b)
  {
    if a == [] {
      assert a + b == b;
    } else {
      var ab := a + b;
      assert ab[0] == a[0] && ab[1..] == a[1..] + b;
      NonEmptyAppend(a[1..], b);
      if a[0] == "" {
        assert NonEmpty(ab) == NonEmpty(a[1..] + b);
      } else {
        assert NonEmpty(ab) == [a[0]] + NonEmpty(a[1..] + b);
      }
    }
  }

  lemma NonEmptySingle(x: string)
    ensures NonEmpty([x]) == (if x == "" then [] else [x])
  {
    assert [x][1..] == [];
  }

  /** `[ext.lower().lstrip(".") for ext in extensions if ext]`. */
  function NormalizeAll(exts: seq<string>): (r: seq<string>)
    ensures |r| == |NonEmpty(exts)|
    ensures forall i :: 0 <= i < |r| ==> r[i] == NormalizeExtension(NonEmpty(exts)[i])
  {
    var given := NonEmpty(exts);
    seq(|given|, i requires 0 <= i < |given| => NormalizeExtension(given[i]))
  }

  /** `for key in keys: m[key] = value`. */
  function AssignAll<V>(m: map<string, V>, keys: seq<string>, value: V): (r: map<string, V>)
    ensures forall k :: k in r <==> k in m || k in keys
    ensures forall k :: k in keys ==> r[k] == value
    ensures forall k :: k in m && k !in keys ==> r[k] == m[k]
    decreases |keys|
  {
    if keys == [] then m else AssignAll(m[keys[0] := value], keys[1..], value)
  }

  function LowerAll(xs: seq<string>): (r: seq<string>)
    ensures |r| == |xs|
    ensures forall i :: 0 <= i < |xs| ==> r[i] == Lower(xs[i])
  {
    seq(|xs|, i requires 0 <= i < |xs| => Lower(xs[i]))
  }

  /** `register(extensions=..., mime_types=...)(parser)`. `None` is the
      `ValueError` raised when no extension is a non-empty string. */
  function Register<P>(reg: Registry<P>, exts: seq<string>, mimeTypes: Option<seq<string>>, parser: P)
    : (r: Option<Registry<P>>)
    ensures r.None? <==> forall e :: e in exts ==> e == ""
    ensures r.Some? && (mimeTypes.None? || mimeTypes.value == []) ==>
      r.value.mimeToExtension == reg.mimeToExtension
  {
    var normalized := NormalizeAll(exts);
    if normalized == [] then
      None
    else
      assert NonEmpty(exts)[0] in exts && NonEmpty(exts)[0] != "";
      var byExtension := AssignAll(reg.byExtension, normalized, parser);
      var mimes :=
        if mimeTypes.Some? && mimeTypes.value != [] then
          AssignAll(reg.mimeToExtension, LowerAll(mimeTypes.value), normalized[0])
        else reg.mimeToExtension;
      Some(Registry(byExtension, mimes))
  }

  /** Registration maps every normalised non-empty extension to the parser
      (overwriting an earlier registration of the same key) and leaves every
      other extension as it was. */
  lemma RegisterExtensions<P>(reg: Registry<P>, exts: seq<string>, mimeTypes: Option<seq<string>>, parser: P)
    requires Register(reg, exts, mimeTypes, parser).Some?
    ensures var m := Register(reg, exts, mimeTypes, parser).value.byExtension;
      && (forall e :: e in exts && e != "" ==> NormalizeExtension(e) in m && m[NormalizeExtension(e)] == parser)
      && (forall k :: k in m <==> k in reg.byExtension || k in NormalizeAll(exts))
      && (forall k :: k in reg.byExtension && k !in NormalizeAll(exts) ==> m[k] == reg.byExtension[k])
  {
    var normalized := NormalizeAll(exts);
    forall e | e in exts && e != "" ensures NormalizeExtension(e) in normalized {
      var i :| 0 <= i < |NonEmpty(exts)| && NonEmpty(exts)[i] == e;
      assert normalized[i] == NormalizeExtension(e);
    }
  }

  /** Registration maps every lower-cased MIME type to the first normalised
      extension and leaves every other MIME type as it was. */
  lemma RegisterMimeTypes<P>(reg: Registry<P>, exts: seq<string>, mimeTypes: seq<string>, parser: P)
    requires Register(reg, exts, Some(mimeTypes), parser).Some?
    ensures var m := Register(reg, exts, Some(mimeTypes), parser).value.mimeToExtension;
      && (forall i :: 0 <= i < |mimeTypes| ==>
            Lower(mimeTypes[i]) in m && m[Lower(mimeTypes[i])] == NormalizeExtension(NonEmpty(exts)[0]))
      && (forall k :: k in m <==> k in reg.mimeToExtension || k in LowerAll(mimeTypes))
      && (forall k :: k in reg.mimeToExtension && k !in LowerAll(mimeTypes) ==> m[k] == reg.mimeToExtension[k])
  {
    var lowered := LowerAll(mimeTypes);
    assert forall i :: 0 <= i < |mimeTypes| ==> lowered[i] in lowered;
  }

  function Lookup<K, V>(m: map<K, V>, k: K): Option<V> {
    if k in m then Some(m[k]) else None
  }

  /** `_resolve_parser`: the extension decides when it is given and
      registered; otherwise the MIME type's extension does; `None` is the
      `UnsupportedDocumentTypeError`. */
  function Resolve<P>(reg: Registry<P>, extension: Option<string>, mimeType: Option<string>): (r: Option<P>)
    ensures r.Some? ==> exists k :: k in reg.byExtension && reg.byExtension[k] == r.value
    ensures (&& extension.Some? && extension.value != ""
             && NormalizeExtension(extension.value) in reg.byExtension) ==>
      r == Some(reg.byExtension[NormalizeExtension(extension.value)])
    ensures (|| extension.None? || extension.value == ""
             || NormalizeExtension(extension.value) !in reg.byExtension) ==>
      (r.Some? <==>
         && mimeType.Some? && mimeType.value != ""
         && Lower(mimeType.value) in reg.mimeToExtension
         && reg.mimeToExtension[Lower(mimeType.value)] != ""
         && reg.mimeToExtension[Lower(mimeType.value)] in reg.byExtension)
    ensures r.Some? && !(extension.Some? && extension.value != ""
                         && NormalizeExtension(extension.value) in reg.byExtension) ==>
      r.value == reg.byExtension[reg.mimeToExtension[Lower(mimeType.value)]]
  {
    var byExtension :=
      if extension.Some? && extension.value != "" then Lookup(reg.byExtension, NormalizeExtension(extension.value))
      else None;
    if byExtension.Some? then byExtension
    else if mimeType.Some? && mimeType.value != "" then
      match Lookup(reg.mimeToExtension, Lower(mimeType.value))
      case Some(mapped) => if mapped != "" then Lookup(reg.byExtension, mapped) else None
      case None => None
    else None
  }

  /** A registered extension wins whatever the MIME type says. */
  lemma ExtensionPreferred<P>(reg: Registry<P>, ext: string, mimeType: Option<string>)
    requires ext != "" && NormalizeExtension(ext) in reg.byExtension
    ensures Resolve(reg, Some(ext), mimeType) == Some(reg.byExtension[NormalizeExtension(ext)])
  {
  }

  /** Without a usable extension only the MIME type is consulted. */
  lemma MimeFallback<P>(reg: Registry<P>, extension: Option<string>, mimeType: Option<string>)
    requires extension.None? || extension.value == "" || NormalizeExtension(extension.value) !in reg.byExtension
    ensures Resolve(reg, extension, mimeType) == Resolve(reg, None, mimeType)
  {
  }

  /** Resolution depends on the extension only through its normal form. */
  lemma SameExtensionSameResolution<P>(reg: Registry<P>, e1: string, e2: string, mimeType: Option<string>)
    requires e1 == "" <==> e2 == ""
    requires NormalizeExtension(e1) == NormalizeExtension(e2)
    ensures Resolve(reg, Some(e1), mimeType) == Resolve(reg, Some(e2), mimeType)
  {
  }

  /** Resolution depends on the MIME type only through its lower-case form. */
  lemma SameMimeTypeSameResolution<P>(reg: Registry<P>, extension: Option<string>, m1: string, m2: string)
    requires m1 == "" <==> m2 == ""
    requires Lower(m1) == Lower(m2)
    ensures Resolve(reg, extension, Some(m1)) == Resolve(reg, extension, Some(m2))
  {
  }

  /** Both lookups ignore letter case. */
  lemma {:induction false} ResolveIgnoresCase<P>(reg: Registry<P>, ext: string, mimeType: string)
    ensures Resolve(reg, Some(ext), Some(mimeType)) == Resolve(reg, Some(Lower(ext)), Some(Lower(mimeType)))
  {
    NormalizeIgnoresCase(ext);
    LowerIdempotent(mimeType);
    SameExtensionSameResolution(reg, ext, Lower(ext), Some(mimeType));
    SameMimeTypeSameResolution(reg, Some(Lower(ext)), mimeType, Lower(mimeType));
  }

  /** After registering, each given non-empty extension resolves to the
      parser, whatever MIME type accompanies it. */
  lemma ExtensionResolvesAfterRegister<P>(
    reg: Registry<P>, exts: seq<string>, mimeTypes: Option<seq<string>>, parser: P, e: string, m: Option<string>)
    requires Register(reg, exts, mimeTypes, parser).Some?
    requires e in exts && e != ""
    ensures Resolve(Register(reg, exts, mimeTypes, parser).value, Some(e), m) == Some(parser)
  {
    RegisterExtensions(reg, exts, mimeTypes, parser);
  }

  /** A MIME type on its own resolves through the extension it maps to. */
  lemma ResolveByMimeType<P>(reg: Registry<P>, mimeType: string, ext: string)
    requires mimeType != "" && ext != ""
    requires Lower(mimeType) in reg.mimeToExtension && reg.mimeToExtension[Lower(mimeType)] == ext
    requires ext in reg.byExtension
    ensures Resolve(reg, None, Some(mimeType)) == Some(reg.byExtension[ext])
  {
  }

  /** After registering, each given non-empty MIME type resolves to the parser
      on its own, provided the first extension is more than dots. */
  lemma MimeTypeResolvesAfterRegister<P>(
    reg: Registry<P>, exts: seq<string>, mimeTypes: seq<string>, parser: P, i: nat)
    requires Register(reg, exts, Some(mimeTypes), parser).Some?
    requires i < |mimeTypes| && mimeTypes[i] != ""
    requires NormalizeExtension(NonEmpty(exts)[0]) != ""
    ensures Resolve(Register(reg, exts, Some(mimeTypes), parser).value, None, Some(mimeTypes[i])) == Some(parser)
  {
    var reg' := Register(reg, exts, Some(mimeTypes), parser).value;
    RegisterMimeTypes(reg, exts, mimeTypes, parser);
    RegisterExtensions(reg, exts, Some(mimeTypes), parser);
    var first := NonEmpty(exts)[0];
    var ext := NormalizeExtension(first);
    assert first in exts && first != "";
    assert Lower(mimeTypes[i]) in reg'.mimeToExtension && reg'.mimeToExtension[Lower(mimeTypes[i])] == ext;
    assert ext in reg'.byExtension && reg'.byExtension[ext] == parser;
    ResolveByMimeType(reg', mimeTypes[i], ext);
  }

  /** The parsers the application registers at import time. */
  datatype Parser = PdfParser | DocxParser | TextParser

  const DocxMimeType: string := "application/vnd.openxmlformats-officedocument.wordprocessingml.document"

  const PdfMimeType: string := "application/pdf"
  const TextMimeType: string := "text/plain"

  /** The tables the parsers module builds at import time: one entry per
      parser, each MIME type pointing at its parser's extension. */
  function DefaultRegistry(): Registry<Parser> {
    Registry(
      map["pdf" := PdfParser, "docx" := DocxParser, "txt" := TextParser],
      map[Lower(PdfMimeType) := "pdf", Lower(DocxMimeType) := "docx", Lower(TextMimeType) := "txt"])
  }

  /** The three registrations, applied in order to an empty registry,
      produce exactly the default tables. */
  lemma DefaultRegistrations()
    ensures var r1 := Register(Empty(), ["pdf"], Some([PdfMimeType]), PdfParser);
      && r1.Some?
      && var r2 := Register(r1.value, ["docx"], Some([DocxMimeType]), DocxParser);
      && r2.Some?
      && Register(r2.value, ["txt"], Some([TextMimeType]), TextParser) == Some(DefaultRegistry())
  {
    assert PlainExtension("pdf") && PlainExtension("docx") && PlainExtension("txt");
    var r0 := Empty<Parser>();
    var r1 := Registry(map["pdf" := PdfParser], map[Lower(PdfMimeType) := "pdf"]);
    var r2 := Registry(r1.byExtension["docx" := DocxParser], r1.mimeToExtension[Lower(DocxMimeType) := "docx"]);
    SingleRegistration(r0, "pdf", PdfMimeType, PdfParser);
    SingleRegistration(r1, "docx", DocxMimeType, DocxParser);
    SingleRegistration(r2, "txt", TextMimeType, TextParser);
  }

  /** A non-empty extension already in normal form. */
  predicate PlainExtension(ext: string) {
    ext != [] && forall i :: 0 <= i < |ext| ==> !IsUpperAscii(ext[i]) && ext[i] != '.'
  }

  /** Registering one dot-free lower-case extension with one MIME type. */
  lemma SingleRegistration<P>(reg: Registry<P>, ext: string, mimeType: string, parser: P)
    requires PlainExtension(ext)
    ensures Register(reg, [ext], Some([mimeType]), parser)
         == Some(Registry(reg.byExtension[ext := parser], reg.mimeToExtension[Lower(mimeType) := ext]))
  {
    assert NonEmpty([ext]) == [ext] by { assert [ext][1..] == []; }
    assert Lower(ext) == ext;
    assert LStrip(ext, '.') == ext;
    assert NormalizeAll([ext]) == [ext];
    assert LowerAll([mimeType]) == [Lower(mimeType)];
    assert AssignAll(reg.byExtension, [ext], parser) == reg.byExtension[ext := parser] by {
      assert [ext][1..] == [];
    }
    assert AssignAll(reg.mimeToExtension, [Lower(mimeType)], ext) == reg.mimeToExtension[Lower(mimeType) := ext] by {
      assert [Lower(mimeType)][1..] == [];
    }
  }

  /** Lookups against the default tables: letter case and a leading dot on
      the extension do not matter, a registered extension beats a MIME type
      naming another parser, an unknown extension falls back to the MIME
      type, and nothing resolves when neither is known. */
  lemma DefaultRegistryResolves()
    ensures Resolve(DefaultRegistry(), Some("PDF"), None) == Some(PdfParser)
    ensures Resolve(DefaultRegistry(), Some(".docx"), Some("text/plain")) == Some(DocxParser)
    ensures Resolve(DefaultRegistry(), Some("csv"), Some("text/plain")) == Some(TextParser)
    ensures Resolve(DefaultRegistry(), None, Some(DocxMimeType)) == Some(DocxParser)
    ensures Resolve(DefaultRegistry(), Some("md"), None) == None
  {
    UpperCaseExtension();
    DottedExtension();
    UnknownExtension();
    MimeTypeOnly();
    NeitherKnown();
  }

  lemma UpperCaseExtension()
    ensures Resolve(DefaultRegistry(), Some("PDF"), None) == Some(PdfParser)
  {
    assert NormalizeExtension("PDF") == "pdf" by {
      assert Lower("PDF") == "pdf";
      LStripNothing("pdf", '.');
    }
    ExtensionPreferred(DefaultRegistry(), "PDF", None);
  }

  lemma DottedExtension()
    ensures Resolve(DefaultRegistry(), Some(".docx"), Some("text/plain")) == Some(DocxParser)
  {
    assert NormalizeExtension(".docx") == "docx" by {
      assert Lower(".docx") == ".docx";
      assert ".docx"[1..] == "docx";
      assert LStrip("docx", '.') == "docx";
    }
    ExtensionPreferred(DefaultRegistry(), ".docx", Some("text/plain"));
  }

  lemma UnknownExtension()
    ensures Resolve(DefaultRegistry(), Some("csv"), Some("text/plain")) == Some(TextParser)
  {
    assert NormalizeExtension("csv") == "csv" by { assert Lower("csv") == "csv"; }
    assert DefaultRegistry().mimeToExtension[Lower(TextMimeType)] == "txt";
  }

  lemma MimeTypeOnly()
    ensures Resolve(DefaultRegistry(), None, Some(DocxMimeType)) == Some(DocxParser)
  {
    var key := Lower(DocxMimeType);
    assert key != Lower(TextMimeType) by {
      assert |key| == |DocxMimeType| == 71;
      assert |Lower(TextMimeType)| == |TextMimeType| == 10;
    }
    assert DefaultRegistry().mimeToExtension[key] == "docx";
  }

  lemma NeitherKnown()
    ensures Resolve(DefaultRegistry(), Some("md"), None) == None
  {
    assert NormalizeExtension("md") == "md" by { assert Lower("md") == "md"; }
  }
}

=== FILE: resumes.dfy ===
/** `Resumes`: uploading, listing, fetching and deleting resumes. An upload
    parses the document, stores the file through the file service and then
    records the resume; a record that cannot be saved makes the service try
    to delete the file again. The file service and the database commit are
    represented by their outcomes, passed in as parameters. */
module Resumes {
  import opened Outcomes
  import opened Text
  import opened Models
  import opened ParserRegistry
  import opened DocumentParsing
  import Ordering

  /** What an operation leaves behind in the database and the file service,
      and what it answers. An error answer may follow effects that were not
      undone. */
  datatype Outcome<T> = Outcome(store: Store, result: Result<T>)

  /** Some resume already points at file `fileId` (`resume.file_id` is unique). */
  predicate FileReferenced(s: Store, fileId: Id) {
    exists k :: k in s.resumes && s.resumes[k].fileId == fileId
  }

  /** The part of `upload_resume` after the text check: store the file, then
      the row. `storedFile` is how the file service's `upload_file` ended:
      the id of the new file, or `None` when it raised (it cleans up after
      itself). A file id already in use is a failing metadata commit inside
      the file service. `recordSaved` is whether the commit of the resume row
      succeeds, `cleanupSucceeds` whether the compensating `delete_file`
      does. */
  function StoreResume(
    s: Store, owner: User, text: string,
    storedFile: Option<Id>, newId: Id, recordSaved: bool, cleanupSucceeds: bool, now: Timestamp)
    : (r: Outcome<Resume>)
    ensures r.result.Ok? <==>
      && storedFile.Some? && storedFile.value !in s.files
      && recordSaved && newId !in s.resumes && !FileReferenced(s, storedFile.value)
    ensures r.result.Ok? ==>
      && r.result.value == Resume(newId, owner.id, storedFile.value, text, now)
      && r.store == s.(resumes := s.resumes[newId := r.result.value], files := s.files + {storedFile.value})
    ensures r.result.Err? ==>
      && r.result == Err(Internal)
      && r.store == s.(files := r.store.files)
      && (r.store.files == s.files || (storedFile.Some? && r.store.files == s.files + {storedFile.value}))
  {
    match storedFile
    case None => Outcome(s, Err(Internal))
    case Some(fileId) =>
      if fileId in s.files then Outcome(s, Err(Internal))
      else
        var withFile := s.(files := s.files + {fileId});
        if recordSaved && newId !in s.resumes && !FileReferenced(s, fileId) then
          var resume := Resume(newId, owner.id, fileId, text, now);
          Outcome(withFile.(resumes := s.resumes[newId := resume]), Ok(resume))
        else if cleanupSucceeds then
          Outcome(s, Err(Internal))
        else
          Outcome(withFile, Err(Internal))
  }

  /** A failed save of the resume row is reported as a 500 and, when the
      compensating deletion succeeds, leaves no trace; otherwise the stored
      file is all that remains. */
  lemma UploadCompensation(
    s: Store, owner: User, text: string,
    fileId: Id, newId: Id, recordSaved: bool, cleanupSucceeds: bool, now: Timestamp)
    requires fileId !in s.files
    requires !recordSaved || newId in s.resumes || FileReferenced(s, fileId)
    ensures var r := StoreResume(s, owner, text, Some(fileId), newId, recordSaved, cleanupSucceeds, now);
      && r.result == Err(Internal)
      && r.store == (if cleanupSucceeds then s else s.(files := s.files + {fileId}))
  {
  }

  /** Storing a resume keeps the schema constraints and foreign keys. */
  lemma StoreResumePreservesInvariants(
    s: Store, owner: User, text: string,
    storedFile: Option<Id>, newId: Id, recordSaved: bool, cleanupSucceeds: bool, now: Timestamp)
    requires Valid(s) && ForeignKeysHold(s)
    ensures var r := StoreResume(s, owner, text, storedFile, newId, recordSaved, cleanupSucceeds, now);
      Valid(r.store) && ForeignKeysHold(r.store)
  {
    var r := StoreResume(s, owner, text, storedFile, newId, recordSaved, cleanupSucceeds, now);
    if r.result.Ok? {
      var fileId := storedFile.value;
      var resumes := r.store.resumes;
      assert forall k :: k in s.resumes ==> s.resumes[k].fileId != fileId;
      forall i, j | i in resumes && j in resumes && resumes[i].fileId == resumes[j].fileId
        ensures i == j
      {
        if i != newId && j != newId {
          assert resumes[i] == s.resumes[i] && resumes[j] == s.resumes[j];
        }
      }
    }
  }

  /** `upload_resume`: parse the upload, refuse text that is empty or only
      whitespace with a 422 before anything is stored, then store the file
      and the row. The stored text is the parsed text as it is, not
      stripped. */
  function UploadResume<P>(
    s: Store, reg: Registry<P>, parse: (P, seq<byte>) -> ParseRun, upload: Upload, owner: User,
    storedFile: Option<Id>, newId: Id, recordSaved: bool, cleanupSucceeds: bool, now: Timestamp)
    : (r: Outcome<Resume>)
    ensures ParseFile(reg, parse, upload).Err? ==> r == Outcome(s, Err(ParseFile(reg, parse, upload).error))
    ensures ParseFile(reg, parse, upload).Ok? ==>
      var text := ParseFile(reg, parse, upload).value.text;
      && (IsBlank(text) ==> r == Outcome(s, Err(Unprocessable)))
      && (!IsBlank(text) ==> r == StoreResume(s, owner, text, storedFile, newId, recordSaved, cleanupSucceeds, now))
  {
    match ParseFile(reg, parse, upload)
    case Err(e) => Outcome(s, Err(e))
    case Ok(parsed) =>
      StripEmptyIffBlank(parsed.text);
      if Strip(parsed.text) == [] then Outcome(s, Err(Unprocessable))
      else StoreResume(s, owner, parsed.text, storedFile, newId, recordSaved, cleanupSucceeds, now)
  }

  /** A successful upload keeps the schema constraints and foreign keys. */
  lemma UploadResumePreservesInvariants<P>(
    s: Store, reg: Registry<P>, parse: (P, seq<byte>) -> ParseRun, upload: Upload, owner: User,
    storedFile: Option<Id>, newId: Id, recordSaved: bool, cleanupSucceeds: bool, now: Timestamp)
    requires Valid(s) && ForeignKeysHold(s)
    ensures var r := UploadResume(s, reg, parse, upload, owner, storedFile, newId, recordSaved, cleanupSucceeds, now);
      Valid(r.store) && ForeignKeysHold(r.store)
  {
    var r := UploadResume(s, reg, parse, upload, owner, storedFile, newId, recordSaved, cleanupSucceeds, now);
    var p := ParseFile(reg, parse, upload);
    if p.Err? || IsBlank(p.value.text) {
      assert r.store == s;
    } else {
      StoreResumePreservesInvariants(s, owner, p.value.text, storedFile, newId, recordSaved, cleanupSucceeds, now);
    }
  }

  /** `list_resumes`: a superuser sees every resume, anyone else only their own. */
  function VisibleResumes(s: Store, u: User): set<Resume> {
    if u.isSuperuser then s.resumes.Values
    else set r | r in s.resumes.Values && r.userId == u.id
  }

  function CreatedAt(r: Resume): Timestamp {
    r.createdAt
  }

  /** `list_resumes`: the visible resumes, each once, newest first. */
  method ListResumes(s: Store, requester: User) returns (r: seq<Resume>)
    ensures forall x :: x in r <==> x in s.resumes.Values && (requester.isSuperuser || x.userId == requester.id)
    ensures |r| == |VisibleResumes(s, requester)|
    ensures Ordering.NewestFirst(r, CreatedAt)
  {
    r := Ordering.SortNewestFirst(VisibleResumes(s, requester), CreatedAt);
    Ordering.SortedRowsAreTheRows(r, VisibleResumes(s, requester));
  }

  /** The owner-or-superuser rule of `get_resume` and `delete_resume`. */
  predicate MayAccessResume(u: User, r: Resume) {
    r.userId == u.id || u.isSuperuser
  }

  /** `get_resume`. */
  function GetResume(s: Store, resumeId: Id, requester: User): (r: Result<Resume>)
    ensures r.Ok? <==> resumeId in s.resumes && MayAccessResume(requester, s.resumes[resumeId])
    ensures r.Ok? ==> r.value == s.resumes[resumeId]
    ensures r.Err? ==> r.error == (if resumeId in s.resumes then Forbidden else NotFound)
  {
    if resumeId !in s.resumes then Err(NotFound)
    else
      var resume := s.resumes[resumeId];
      if resume.userId != requester.id && !requester.isSuperuser then Err(Forbidden)
      else Ok(resume)
  }

  /** Whatever the list shows can also be opened one by one. */
  lemma ListedResumeCanBeFetched(s: Store, requester: User, x: Resume)
    requires KeysMatch(s)
    requires x in VisibleResumes(s, requester)
    ensures GetResume(s, x.id, requester) == Ok(x)
  {
    var k :| k in s.resumes && s.resumes[k] == x;
  }

  /** After an upload the uploader can fetch the new resume. */
  lemma StoredResumeCanBeFetched(
    s: Store, owner: User, text: string,
    storedFile: Option<Id>, newId: Id, recordSaved: bool, cleanupSucceeds: bool, now: Timestamp)
    requires StoreResume(s, owner, text, storedFile, newId, recordSaved, cleanupSucceeds, now).result.Ok?
    ensures var r := StoreResume(s, owner, text, storedFile, newId, recordSaved, cleanupSucceeds, now);
      GetResume(r.store, newId, owner) == r.result
  {
  }

  /** Applications that named the deleted resume lose the reference (the
      ORM nulls the foreign key of the children it knows about). */
  function Detach(apps: map<Id, JobApplication>, resumeId: Id): (r: map<Id, JobApplication>)
    ensures r.Keys == apps.Keys
    ensures forall k :: k in r ==> r[k].resumeId != Some(resumeId)
    ensures forall k :: k in r ==>
      r[k] == (if apps[k].resumeId == Some(resumeId) then apps[k].(resumeId := None) else apps[k])
  {
    map k | k in apps :: if apps[k].resumeId == Some(resumeId) then apps[k].(resumeId := None) else apps[k]
  }

  /** `delete_resume`. `recordDeleted` is whether the commit removing the row
      succeeds; `fileDeleted` whether the file service then drops the file
      record. The row goes first, so a failing commit leaves the file alone;
      a failing file deletion is ignored. */
  function DeleteResume(s: Store, resumeId: Id, requester: User, recordDeleted: bool, fileDeleted: bool)
    : (r: Outcome<()>)
    ensures r.result.Ok? <==>
      resumeId in s.resumes && MayAccessResume(requester, s.resumes[resumeId]) && recordDeleted
    ensures r.result.Err? ==> r.store == s
    ensures r.result.Err? ==>
      (r.result.error ==
         if resumeId !in s.resumes then NotFound
         else if !MayAccessResume(requester, s.resumes[resumeId]) then Forbidden
         else Internal)
    ensures r.result.Ok? ==>
      && resumeId !in r.store.resumes
      && r.store.resumes == s.resumes - {resumeId}
      && r.store.applications == Detach(s.applications, resumeId)
      && r.store.files == (if fileDeleted then s.files - {s.resumes[resumeId].fileId} else s.files)
      && r.store.listings == s.listings && r.store.screens == s.screens
  {
    if resumeId !in s.resumes then Outcome(s, Err(NotFound))
    else
      var resume := s.resumes[resumeId];
      if resume.userId != requester.id && !requester.isSuperuser then Outcome(s, Err(Forbidden))
      else if !recordDeleted then Outcome(s, Err(Internal))
      else
        var withoutRow := s.(resumes := s.resumes - {resumeId}, applications := Detach(s.applications, resumeId));
        if fileDeleted then Outcome(withoutRow.(files := s.files - {resume.fileId}), Ok(()))
        else Outcome(withoutRow, Ok(()))
  }

  /** Deleting keeps the schema constraints and the foreign keys: no
      application is left pointing at the deleted resume, and the file
      removed belonged to that resume alone. */
  lemma DeleteResumePreservesInvariants(
    s: Store, resumeId: Id, requester: User, recordDeleted: bool, fileDeleted: bool)
    requires Valid(s) && ForeignKeysHold(s)
    ensures var r := DeleteResume(s, resumeId, requester, recordDeleted, fileDeleted);
      Valid(r.store) && ForeignKeysHold(r.store)
  {
    var r := DeleteResume(s, resumeId, requester, recordDeleted, fileDeleted);
    if r.result.Ok? {
      var s' := r.store;
      var gone := s.resumes[resumeId].fileId;
      forall k | k in s'.resumes ensures s'.resumes[k].fileId in s'.files {
        assert s'.resumes[k] == s.resumes[k];
        assert s.resumes[k].fileId != gone;
      }
      var apps := s'.applications;
      forall i, j | i in apps && j in apps && apps[i].listingId == apps[j].listingId
                    && apps[i].applicantId == apps[j].applicantId
        ensures i == j
      {
        assert apps[i].listingId == s.applications[i].listingId;
        assert apps[j].listingId == s.applications[j].listingId;
      }
      forall k | k in apps && apps[k].resumeId.Some? ensures apps[k].resumeId.value in s'.resumes {
        assert apps[k].resumeId == s.applications[k].resumeId;
      }
    }
  }

  /** Once deleted, a resume is gone for everyone. */
  lemma DeletedResumeIsNotFound(
    s: Store, resumeId: Id, requester: User, recordDeleted: bool, fileDeleted: bool, anyone: User)
    requires DeleteResume(s, resumeId, requester, recordDeleted, fileDeleted).result.Ok?
    ensures GetResume(DeleteResume(s, resumeId, requester, recordDeleted, fileDeleted).store, resumeId, anyone)
         == Err(NotFound)
  {
  }
}

=== FILE: scoring.dfy ===
/** The weighted score of a screening: points per qualification status,
    minimum qualifications weighted twice as much as preferred ones, and a
    match percentage of the earned over the attainable points. */
module Scoring {
  import opened Models

  /** `_STATUS_POINTS`: no status is worth more than a highly qualified one,
      and only a not-qualified one is worth nothing. */
  function Points(s: ReasonStatus): (r: nat)
    ensures r <= MaxStatusPoints
    ensures r == MaxStatusPoints <==> s == HighlyQualified
    ensures r == 0 <==> s == NotQualified
  {
    match s
    case HighlyQualified => 4
    case Qualified => 3
    case Meets => 2
    case NotQualified => 0
  }

  /** `_MAX_STATUS_POINTS`, the largest value of the points table. */
  const MaxStatusPoints: nat := 4
  const MinimumWeight: nat := 2
  const PreferredWeight: nat := 1

  lemma MaxStatusPointsIsTheMaximum()
    ensures forall s :: Points(s) <= MaxStatusPoints
    ensures exists s :: Points(s) == MaxStatusPoints
  {
    assert Points(HighlyQualified) == MaxStatusPoints;
  }

  /** The rating scale of a qualification, worst first, independent of the
      points table. */
  function Rating(s: ReasonStatus): nat {
    match s
    case NotQualified => 0
    case Meets => 1
    case Qualified => 2
    case HighlyQualified => 3
  }

  /** The points table ranks the statuses as the rating scale does. */
  lemma PointsFollowRating()
    ensures Points(NotQualified) < Points(Meets) < Points(Qualified) < Points(HighlyQualified)
    ensures forall a, b :: Rating(a) < Rating(b) ==> Points(a) < Points(b)
    ensures forall a, b :: Rating(a) <= Rating(b) ==> Points(a) <= Points(b)
  {
  }

  /** Unweighted points earned over a list of reasons. */
  function Earned(rs: seq<ScreeningReason>): nat {
    if rs == [] then 0 else Points(rs[0].status) + Earned(rs[1..])
  }

  /** `_score_reasons`: earned and attainable points at weight `weight`. */
  function ScoreReasons(rs: seq<ScreeningReason>, weight: nat): (r: (nat, nat))
    ensures rs == [] ==> r == (0, 0)
    ensures r.0 == Earned(rs) * weight
    ensures r.1 == |rs| * MaxStatusPoints * weight
    ensures r.0 <= r.1
  {
    EarnedBounds(rs);
    ScaleMonotone(Earned(rs), |rs| * MaxStatusPoints, weight);
    if rs == [] then (0, 0)
    else (Earned(rs) * weight, |rs| * MaxStatusPoints * weight)
  }

  lemma ScaleMonotone(a: nat, b: nat, w: nat)
    requires a <= b
    ensures a * w <= b * w
  {
  }

  lemma {:induction false} EarnedBounds(rs: seq<ScreeningReason>)
    ensures Earned(rs) <= |rs| * MaxStatusPoints
  {
    if rs != [] {
      EarnedBounds(rs[1..]);
    }
  }

  /** Raising one reason's status never lowers the points earned. */
  lemma {:induction false} RaiseNeverLowersEarned(rs: seq<ScreeningReason>, i: nat, st: ReasonStatus)
    requires i < |rs| && Rating(rs[i].status) <= Rating(st)
    ensures Earned(rs) <= Earned(rs[i := rs[i].(status := st)])
  {
    var raised := rs[i := rs[i].(status := st)];
    PointsFollowRating();
    if i == 0 {
      assert raised[1..] == rs[1..];
    } else {
      assert raised[1..] == rs[1..][i - 1 := rs[i].(status := st)];
      RaiseNeverLowersEarned(rs[1..], i - 1, st);
    }
  }

  /** Every point is earned exactly when every qualification is highly met. */
  lemma {:induction false} FullMarksIff(rs: seq<ScreeningReason>)
    ensures Earned(rs) == |rs| * MaxStatusPoints
            <==> forall i :: 0 <= i < |rs| ==> rs[i].status == HighlyQualified
  {
    if rs != [] {
      FullMarksIff(rs[1..]);
      EarnedBounds(rs[1..]);
      assert forall i :: 1 <= i < |rs| ==> rs[i] == rs[1..][i - 1];
    }
  }

  /** No point is earned exactly when no qualification is met. */
  lemma {:induction false} NoMarksIff(rs: seq<ScreeningReason>)
    ensures Earned(rs) == 0 <==> forall i :: 0 <= i < |rs| ==> rs[i].status == NotQualified
  {
    if rs != [] {
      NoMarksIff(rs[1..]);
      assert forall i :: 1 <= i < |rs| ==> rs[i] == rs[1..][i - 1];
    }
  }

  /** `JobApplicationScore`, with the match percentage kept exact. */
  datatype Score = Score(
    minimumScore: nat,
    minimumMaxScore: nat,
    preferredScore: nat,
    preferredMaxScore: nat,
    totalScore: nat,
    maxScore: nat,
    matchPercentage: real)

  /** `_calculate_score` over the two evaluated lists of a screen. */
  function CalculateScore(minimum: seq<ScreeningReason>, preferred: seq<ScreeningReason>): (r: Score)
    ensures r.minimumScore == MinimumWeight * Earned(minimum)
    ensures r.preferredScore == PreferredWeight * Earned(preferred)
    ensures r.minimumMaxScore == MinimumWeight * |minimum| * MaxStatusPoints
    ensures r.preferredMaxScore == PreferredWeight * |preferred| * MaxStatusPoints
    ensures r.totalScore == r.minimumScore + r.preferredScore
    ensures r.maxScore == r.minimumMaxScore + r.preferredMaxScore
    ensures r.maxScore == (2 * |minimum| + |preferred|) * MaxStatusPoints
    ensures r.totalScore <= r.maxScore
    ensures 0.0 <= r.matchPercentage <= 100.0
    ensures r.maxScore == 0 ==> r.matchPercentage == 0.0
    ensures r.maxScore > 0 ==> r.matchPercentage == r.totalScore as real / r.maxScore as real * 100.0
  {
    var (minScore, minMax) := ScoreReasons(minimum, MinimumWeight);
    var (prefScore, prefMax) := ScoreReasons(preferred, PreferredWeight);
    var total := minScore + prefScore;
    var max := minMax + prefMax;
    var pct := if max != 0 then Percentage(total, max) else 0.0;
    Score(minScore, minMax, prefScore, prefMax, total, max, pct)
  }

  function Percentage(part: nat, whole: nat): (p: real)
    requires 0 < whole && part <= whole
    ensures 0.0 <= p <= 100.0
    ensures p == part as real / whole as real * 100.0
    ensures p == 100.0 <==> part == whole
    ensures p == 0.0 <==> part == 0
  {
    var q := part as real / whole as real;
    assert q * whole as real == part as real;
    assert q <= whole as real / whole as real;
    q * 100.0
  }

  /** A screen scores 100% exactly when it evaluates at least one
      qualification and rates every qualification highly qualified. */
  lemma PerfectMatchIff(minimum: seq<ScreeningReason>, preferred: seq<ScreeningReason>)
    ensures CalculateScore(minimum, preferred).matchPercentage == 100.0
            <==> && |minimum| + |preferred| > 0
                 && (forall i :: 0 <= i < |minimum| ==> minimum[i].status == HighlyQualified)
                 && (forall i :: 0 <= i < |preferred| ==> preferred[i].status == HighlyQualified)
  {
    EarnedBounds(minimum);
    EarnedBounds(preferred);
    FullMarksIff(minimum);
    FullMarksIff(preferred);
  }

  /** A screen scores 0% exactly when it rates no qualification above not
      qualified (including when it evaluates none). */
  lemma NoMatchIff(minimum: seq<ScreeningReason>, preferred: seq<ScreeningReason>)
    ensures CalculateScore(minimum, preferred).matchPercentage == 0.0
            <==> && (forall i :: 0 <= i < |minimum| ==> minimum[i].status == NotQualified)
                 && (forall i :: 0 <= i < |preferred| ==> preferred[i].status == NotQualified)
  {
    NoMarksIff(minimum);
    NoMarksIff(preferred);
  }

  /** Part over a fixed whole grows with the part. */
  lemma PercentageMonotone(a: nat, b: nat, whole: nat)
    requires 0 < whole && a <= b <= whole
    ensures Percentage(a, whole) <= Percentage(b, whole)
  {
    var w := whole as real;
    var qa, qb := a as real / w, b as real / w;
    assert qa * w == a as real && qb * w == b as real;
    var d := (b as real - a as real) / w;
    assert d * w == b as real - a as real;
    Distribute(qb, qa, w);
    CancelPositive(d, qb - qa, w);
    assert 0.0 <= d;
  }

  lemma Distribute(x: real, y: real, w: real)
    ensures (x - y) * w == x * w - y * w
  {
  }

  lemma CancelPositive(x: real, y: real, w: real)
    requires 0.0 < w && x * w == y * w
    ensures x == y
  {
    assert (x - y) * w == 0.0;
  }

  /** Raising the status of one minimum or one preferred qualification never
      lowers the match percentage. */
  lemma RaiseNeverLowersMatch(
    minimum: seq<ScreeningReason>, preferred: seq<ScreeningReason>, inMinimum: bool, i: nat, st: ReasonStatus)
    requires inMinimum ==> i < |minimum| && Rating(minimum[i].status) <= Rating(st)
    requires !inMinimum ==> i < |preferred| && Rating(preferred[i].status) <= Rating(st)
    ensures var minimum' := if inMinimum then minimum[i := minimum[i].(status := st)] else minimum;
      var preferred' := if inMinimum then preferred else preferred[i := preferred[i].(status := st)];
      CalculateScore(minimum, preferred).matchPercentage <= CalculateScore(minimum', preferred').matchPercentage
  {
    var minimum' := if inMinimum then minimum[i := minimum[i].(status := st)] else minimum;
    var preferred' := if inMinimum then preferred else preferred[i := preferred[i].(status := st)];
    if inMinimum {
      RaiseNeverLowersEarned(minimum, i, st);
    } else {
      RaiseNeverLowersEarned(preferred, i, st);
    }
    var before := CalculateScore(minimum, preferred);
    var after := CalculateScore(minimum', preferred');
    assert before.maxScore == after.maxScore;
    assert before.totalScore <= after.totalScore;
    if before.maxScore > 0 {
      PercentageMonotone(before.totalScore, after.totalScore, before.maxScore);
    }
  }
}

=== FILE: screens.dfy ===
/** `JobApplicationScreeningService`: running the screening agent once per
    application, manual overrides of its results, reading screens and scoring
    them. The agent's answer is an input of the model. */
module Screens {
  import opened Outcomes
  import opened Models
  import opened Scoring
  import Ordering

  /** What awaiting the screening agent produced. */
  datatype AgentRun =
    | AgentFailed                  // the call raised
    | UnexpectedPayload            // the output is not a screening payload
    | Payload(minimum: seq<ScreeningReason>, preferred: seq<ScreeningReason>)

  /** `_update_screen_score`: store the recomputed match percentage. */
  function Rescore(sc: Screen): (r: Screen)
    ensures r.score.Some? && 0.0 <= r.score.value <= 100.0
    ensures r.score.value == CalculateScore(sc.minimumQualifications, sc.preferredQualifications).matchPercentage
    ensures r == sc.(score := r.score)
  {
    sc.(score := Some(CalculateScore(sc.minimumQualifications, sc.preferredQualifications).matchPercentage))
  }

  /** The fields the `JobApplicationScreen` table model declares, its own and
      those of `JobApplicationScreenBase`. */
  const ScreenTableFields: set<string> :=
    {"application_id", "minimum_qualifications", "preferred_qualifications",
     "id", "created_at", "updated_at", "application"}

  /** `_update_screen_score` as written: `screen.score = ...` assigns a field
      the table model does not declare, which the model's validation refuses,
      so the request ends in a 500. */
  function RescoreAsWritten(sc: Screen): (r: Result<Screen>)
    ensures r.Ok? <==> "score" in ScreenTableFields
    ensures r.Ok? ==> r.value == Rescore(sc)
    ensures r.Err? ==> r.error == Internal
  {
    if "score" in ScreenTableFields then Ok(Rescore(sc)) else Err(Internal)
  }

  /** The assignment as written fails on every screen, so every screening,
      manual save and scoring that reaches it would answer 500; the intended
      `Rescore`, used by the rest of this model, stores the percentage. */
  lemma RescoreAsWrittenAlwaysFails(sc: Screen)
    ensures RescoreAsWritten(sc) == Err(Internal)
    ensures Rescore(sc).score == Some(CalculateScore(sc.minimumQualifications, sc.preferredQualifications).matchPercentage)
  {
    assert "score" != "id" && "score" != "application";
  }

  /** The requester may screen with this resume: an applicant (who is not a
      superuser) may only use their own. */
  predicate MayUseResume(u: User, resume: Resume) {
    u.isSuperuser || u.role != Applicant || resume.userId == u.id
  }

  /** Every check `screen_application` makes before looking for an existing screen. */
  predicate ScreenGuardsPass(s: Store, requester: User, applicationId: Id) {
    && applicationId in s.applications
    && var a := s.applications[applicationId];
    && a.listingId in s.listings
    && MayAccessApplication(requester, a, Some(s.listings[a.listingId]))
    && a.resumeId.Some?
    && a.resumeId.value in s.resumes
    && MayUseResume(requester, s.resumes[a.resumeId.value])
  }

  /** `screen_application`. An application that already has a screen gets it
      back untouched; otherwise the agent's answer is scored and stored under
      `newScreenId`, and the application is put UNDER_REVIEW. */
  function ScreenApplication(
    s: Store, requester: User, applicationId: Id, agent: AgentRun, newScreenId: Id, now: Timestamp)
    : (r: Result<(Store, Screen)>)
    requires Valid(s)
    ensures r.Ok? <==>
      && ScreenGuardsPass(s, requester, applicationId)
      && (ScreenOf(s, applicationId).Some? || (agent.Payload? && newScreenId !in s.screens))
    ensures r.Ok? && ScreenOf(s, applicationId).Some? ==> r.value == (s, ScreenOf(s, applicationId).value)
    ensures r.Ok? && ScreenOf(s, applicationId).None? ==>
      && var a := s.applications[applicationId];
      && r.value.1 == Rescore(Screen(newScreenId, applicationId, agent.minimum, agent.preferred, None, now))
      && r.value.0 == s.(screens := s.screens[newScreenId := r.value.1],
                         applications := s.applications[applicationId := a.(status := UnderReview)])
    ensures (&& ScreenGuardsPass(s, requester, applicationId) && ScreenOf(s, applicationId).None?
             && (!agent.Payload? || newScreenId in s.screens)) ==> r == Err(Internal)
  {
    if applicationId !in s.applications then Err(NotFound)
    else
      var a := s.applications[applicationId];
      if a.listingId !in s.listings then Err(NotFound)
      else
        var listing := s.listings[a.listingId];
        if !MayAccessApplication(requester, a, Some(listing)) then Err(Forbidden)
        else if a.resumeId.None? then Err(BadRequest)
        else if a.resumeId.value !in s.resumes then Err(NotFound)
        else if !MayUseResume(requester, s.resumes[a.resumeId.value]) then Err(Forbidden)
        else match ScreenOf(s, applicationId)
          case Some(existing) => Ok((s, existing))
          case None =>
            match agent
            case AgentFailed => Err(Internal)
            case UnexpectedPayload => Err(Internal)
            case Payload(minimum, preferred) =>
              if newScreenId in s.screens then Err(Internal)
              else
                var sc := Rescore(Screen(newScreenId, applicationId, minimum, preferred, None, now));
                Ok((s.(screens := s.screens[newScreenId := sc],
                       applications := s.applications[applicationId := a.(status := UnderReview)]), sc))
  }

  /** The screening guards in their order. */
  lemma ScreenGuardOrder(
    s: Store, requester: User, applicationId: Id, agent: AgentRun, newScreenId: Id, now: Timestamp)
    requires Valid(s)
    ensures var r := ScreenApplication(s, requester, applicationId, agent, newScreenId, now);
      && (applicationId !in s.applications ==> r == Err(NotFound))
      && (applicationId in s.applications ==>
            var a := s.applications[applicationId];
            && (a.listingId !in s.listings ==> r == Err(NotFound))
            && (a.listingId in s.listings ==>
                  var listing := s.listings[a.listingId];
                  && (!MayAccessApplication(requester, a, Some(listing)) ==> r == Err(Forbidden))
                  && (MayAccessApplication(requester, a, Some(listing)) ==>
                        && (a.resumeId.None? ==> r == Err(BadRequest))
                        && (a.resumeId.Some? && a.resumeId.value !in s.resumes ==> r == Err(NotFound))
                        && ((a.resumeId.Some? && a.resumeId.value in s.resumes
                             && !MayUseResume(requester, s.resumes[a.resumeId.value])) ==> r == Err(Forbidden)))))
  {
  }

  /** Once an application has a screen, neither the agent's answer nor the
      offered id matters: the agent is not consulted. */
  lemma ExistingScreenIgnoresAgent(
    s: Store, requester: User, applicationId: Id,
    agent1: AgentRun, id1: Id, now1: Timestamp, agent2: AgentRun, id2: Id, now2: Timestamp)
    requires Valid(s)
    requires ScreenOf(s, applicationId).Some?
    ensures ScreenApplication(s, requester, applicationId, agent1, id1, now1)
         == ScreenApplication(s, requester, applicationId, agent2, id2, now2)
  {
  }

  lemma ScreenApplicationPreservesValid(
    s: Store, requester: User, applicationId: Id, agent: AgentRun, newScreenId: Id, now: Timestamp)
    requires Valid(s)
    requires ScreenApplication(s, requester, applicationId, agent, newScreenId, now).Ok?
    ensures Valid(ScreenApplication(s, requester, applicationId, agent, newScreenId, now).value.0)
  {
    var s' := ScreenApplication(s, requester, applicationId, agent, newScreenId, now).value.0;
    if ScreenOf(s, applicationId).None? {
      var apps := s'.applications;
      forall i, j | i in apps && j in apps && apps[i].listingId == apps[j].listingId
                    && apps[i].applicantId == apps[j].applicantId
        ensures i == j
      {
        assert apps[i].listingId == s.applications[i].listingId;
        assert apps[j].listingId == s.applications[j].listingId;
      }
      var scs := s'.screens;
      forall i, j | i in scs && j in scs && scs[i].applicationId == scs[j].applicationId
        ensures i == j
      {
        if i != newScreenId && j != newScreenId {
          assert scs[i] == s.screens[i] && scs[j] == s.screens[j];
        }
      }
    }
  }

  /** Screening is idempotent: after a successful screening, screening again
      (with any agent answer, id or time) returns the same screen and changes
      nothing. */
  lemma ScreenApplicationIdempotent(
    s: Store, requester: User, applicationId: Id, agent: AgentRun, newScreenId: Id, now: Timestamp,
    agent2: AgentRun, newScreenId2: Id, later: Timestamp)
    requires Valid(s)
    requires ScreenApplication(s, requester, applicationId, agent, newScreenId, now).Ok?
    ensures var (s1, sc) := ScreenApplication(s, requester, applicationId, agent, newScreenId, now).value;
            && Valid(s1)
            && ScreenApplication(s1, requester, applicationId, agent2, newScreenId2, later) == Ok((s1, sc))
  {
    ScreenApplicationPreservesValid(s, requester, applicationId, agent, newScreenId, now);
    var (s1, sc) := ScreenApplication(s, requester, applicationId, agent, newScreenId, now).value;
    if ScreenOf(s, applicationId).None? {
      assert s1.screens[newScreenId] == sc;
      assert ScreenOf(s1, applicationId) == Some(sc);
      assert ScreenGuardsPass(s1, requester, applicationId);
    }
  }

  /** `payload.x if payload.x is not None else current`: a list left out of
      the update keeps its stored value. */
  function Merge(update: Option<seq<ScreeningReason>>, current: seq<ScreeningReason>): (r: seq<ScreeningReason>)
    ensures update.None? ==> r == current
    ensures update.Some? ==> r == update.value
  {
    match update
    case Some(xs) => xs
    case None => current
  }

  /** The screen a manual update starts from: the stored one, or a blank one
      under `newScreenId`. */
  function ScreenOrBlank(s: Store, applicationId: Id, newScreenId: Id, now: Timestamp): Screen
    requires OneScreenPerApplication(s.screens)
  {
    match ScreenOf(s, applicationId)
    case Some(sc) => sc
    case None => Screen(newScreenId, applicationId, [], [], None, now)
  }

  /** `save_manual_results`: only a superuser or the listing's company may
      override; lists left out keep their value; the score is recomputed and
      the application is put UNDER_REVIEW whatever its status was. */
  function SaveManualResults(
    s: Store, requester: User, applicationId: Id,
    minimum: Option<seq<ScreeningReason>>, preferred: Option<seq<ScreeningReason>>,
    newScreenId: Id, now: Timestamp)
    : (r: Result<(Store, Screen)>)
    requires Valid(s)
    ensures r.Ok? <==>
      && applicationId in s.applications
      && var a := s.applications[applicationId];
      && a.listingId in s.listings
      && (requester.isSuperuser || s.listings[a.listingId].companyId == requester.id)
      && (minimum.Some? || preferred.Some?)
      && (ScreenOf(s, applicationId).Some? || newScreenId !in s.screens)
    ensures r.Ok? ==>
      && var base := ScreenOrBlank(s, applicationId, newScreenId, now);
      && var a := s.applications[applicationId];
      && r.value.1.id == base.id && r.value.1.applicationId == applicationId
      && r.value.1.createdAt == base.createdAt
      && r.value.1.minimumQualifications == Merge(minimum, base.minimumQualifications)
      && r.value.1.preferredQualifications == Merge(preferred, base.preferredQualifications)
      && r.value.1.score == Some(CalculateScore(r.value.1.minimumQualifications,
                                                r.value.1.preferredQualifications).matchPercentage)
      && r.value.0 == s.(screens := s.screens[base.id := r.value.1],
                         applications := s.applications[applicationId := a.(status := UnderReview)])
    ensures (&& applicationId in s.applications && s.applications[applicationId].listingId in s.listings
             && (requester.isSuperuser
                 || s.listings[s.applications[applicationId].listingId].companyId == requester.id)
             && minimum.None? && preferred.None?) ==> r == Err(BadRequest)
    ensures r.Err? ==>
      r.error ==
      (if applicationId !in s.applications || s.applications[applicationId].listingId !in s.listings then NotFound
       else if !requester.isSuperuser
               && s.listings[s.applications[applicationId].listingId].companyId != requester.id then Forbidden
       else if minimum.None? && preferred.None? then BadRequest
       else Internal)
  {
    if applicationId !in s.applications then Err(NotFound)
    else
      var a := s.applications[applicationId];
      if a.listingId !in s.listings then Err(NotFound)
      else if !requester.isSuperuser && s.listings[a.listingId].companyId != requester.id then Err(Forbidden)
      else if minimum.None? && preferred.None? then Err(BadRequest)
      else if ScreenOf(s, applicationId).None? && newScreenId in s.screens then Err(Internal)
      else
        var base := ScreenOrBlank(s, applicationId, newScreenId, now);
        var sc := Rescore(base.(minimumQualifications := Merge(minimum, base.minimumQualifications),
                                preferredQualifications := Merge(preferred, base.preferredQualifications)));
        Ok((s.(screens := s.screens[base.id := sc],
               applications := s.applications[applicationId := a.(status := UnderReview)]), sc))
  }

  lemma SaveManualResultsPreservesValid(
    s: Store, requester: User, applicationId: Id,
    minimum: Option<seq<ScreeningReason>>, preferred: Option<seq<ScreeningReason>>,
    newScreenId: Id, now: Timestamp)
    requires Valid(s)
    requires SaveManualResults(s, requester, applicationId, minimum, preferred, newScreenId, now).Ok?
    ensures Valid(SaveManualResults(s, requester, applicationId, minimum, preferred, newScreenId, now).value.0)
  {
    var s' := SaveManualResults(s, requester, applicationId, minimum, preferred, newScreenId, now).value.0;
    var base := ScreenOrBlank(s, applicationId, newScreenId, now);
    var apps := s'.applications;
    forall i, j | i in apps && j in apps && apps[i].listingId == apps[j].listingId
                  && apps[i].applicantId == apps[j].applicantId
      ensures i == j
    {
      assert apps[i].listingId == s.applications[i].listingId;
      assert apps[j].listingId == s.applications[j].listingId;
    }
    var scs := s'.screens;
    forall i, j | i in scs && j in scs && scs[i].applicationId == scs[j].applicationId
      ensures i == j
    {
      if i != base.id && j != base.id {
        assert scs[i] == s.screens[i] && scs[j] == s.screens[j];
      }
    }
  }

  /** Saving the same manual results twice is saving them once. */
  lemma SaveManualResultsIdempotent(
    s: Store, requester: User, applicationId: Id,
    minimum: Option<seq<ScreeningReason>>, preferred: Option<seq<ScreeningReason>>,
    newScreenId: Id, now: Timestamp, newScreenId2: Id, later: Timestamp)
    requires Valid(s)
    requires SaveManualResults(s, requester, applicationId, minimum, preferred, newScreenId, now).Ok?
    ensures var (s1, sc) := SaveManualResults(s, requester, applicationId, minimum, preferred, newScreenId, now).value;
            && Valid(s1)
            && SaveManualResults(s1, requester, applicationId, minimum, preferred, newScreenId2, later) == Ok((s1, sc))
  {
    SaveManualResultsPreservesValid(s, requester, applicationId, minimum, preferred, newScreenId, now);
    var (s1, sc) := SaveManualResults(s, requester, applicationId, minimum, preferred, newScreenId, now).value;
    var base := ScreenOrBlank(s, applicationId, newScreenId, now);
    assert s1.screens[base.id] == sc;
    assert ScreenOf(s1, applicationId) == Some(sc);
    var a1 := s1.applications[applicationId];
    assert s1.applications[applicationId := a1.(status := UnderReview)] == s1.applications;
    assert s1.screens[sc.id := sc] == s1.screens;
  }

  /** `get_screen`. */
  function GetScreen(s: Store, screenId: Id, requester: User): (r: Result<Screen>)
    ensures r.Ok? <==>
      && screenId in s.screens
      && s.screens[screenId].applicationId in s.applications
      && var a := s.applications[s.screens[screenId].applicationId];
         MayAccessApplication(requester, a, ListingOf(s, a))
    ensures r.Ok? ==> r.value == s.screens[screenId]
    ensures r.Err? ==> r.error == (if screenId in s.screens && s.screens[screenId].applicationId in s.applications
                                   then Forbidden else NotFound)
  {
    if screenId !in s.screens then Err(NotFound)
    else
      var sc := s.screens[screenId];
      if sc.applicationId !in s.applications then Err(NotFound)
      else
        var a := s.applications[sc.applicationId];
        if requester.isSuperuser then Ok(sc)
        else if a.applicantId == requester.id then Ok(sc)
        else if OwnsListing(requester, ListingOf(s, a)) then Ok(sc)
        else Err(Forbidden)
  }

  /** `score_application`: recompute the score of the stored screen, store the
      new percentage and return the breakdown. */
  function ScoreApplication(s: Store, applicationId: Id, requester: User): (r: Result<(Store, Score)>)
    requires Valid(s)
    ensures r.Ok? <==>
      && applicationId in s.applications
      && var a := s.applications[applicationId];
      && a.listingId in s.listings
      && MayAccessApplication(requester, a, Some(s.listings[a.listingId]))
      && ScreenOf(s, applicationId).Some?
    ensures r.Ok? ==>
      && var sc := ScreenOf(s, applicationId).value;
      && r.value.1 == CalculateScore(sc.minimumQualifications, sc.preferredQualifications)
      && r.value.0 == s.(screens := s.screens[sc.id := sc.(score := Some(r.value.1.matchPercentage))])
    ensures r.Err? ==>
      r.error ==
      (if && applicationId in s.applications
          && s.applications[applicationId].listingId in s.listings
          && !MayAccessApplication(requester, s.applications[applicationId],
                                   Some(s.listings[s.applications[applicationId].listingId]))
       then Forbidden
       else NotFound)
  {
    if applicationId !in s.applications then Err(NotFound)
    else
      var a := s.applications[applicationId];
      if a.listingId !in s.listings then Err(NotFound)
      else if !MayAccessApplication(requester, a, Some(s.listings[a.listingId])) then Err(Forbidden)
      else match ScreenOf(s, applicationId)
        case None => Err(NotFound)
        case Some(sc) =>
          var rescored := Rescore(sc);
          Ok((s.(screens := s.screens[sc.id := rescored]),
              CalculateScore(sc.minimumQualifications, sc.preferredQualifications)))
  }

  /** A screen just produced by the service already carries its current score:
      scoring it right away changes nothing and reports that same percentage. */
  lemma ScoreAfterScreeningIsStored(
    s: Store, requester: User, applicationId: Id, agent: AgentRun, newScreenId: Id, now: Timestamp)
    requires Valid(s)
    requires ScreenApplication(s, requester, applicationId, agent, newScreenId, now).Ok?
    ensures var (s1, sc) := ScreenApplication(s, requester, applicationId, agent, newScreenId, now).value;
            && Valid(s1)
            && ScreenOf(s1, applicationId) == Some(sc)
            && (ScreenOf(s, applicationId).None? ==>
                  ScoreApplication(s1, applicationId, requester).Ok?
                  && ScoreApplication(s1, applicationId, requester).value.0 == s1
                  && sc.score == Some(ScoreApplication(s1, applicationId, requester).value.1.matchPercentage))
  {
    ScreenApplicationPreservesValid(s, requester, applicationId, agent, newScreenId, now);
    var (s1, sc) := ScreenApplication(s, requester, applicationId, agent, newScreenId, now).value;
    if ScreenOf(s, applicationId).None? {
      assert s1.screens[newScreenId] == sc;
      assert ScreenOf(s1, applicationId) == Some(sc);
      assert s1.screens[sc.id := sc.(score := sc.score)] == s1.screens;
    } else {
      assert s1 == s;
    }
  }

  /** The screens a requester may list: all for a superuser; for a company,
      those on its listings; for anyone else, those on their own applications. */
  function VisibleScreens(s: Store, u: User): set<Screen> {
    if u.isSuperuser then s.screens.Values
    else if u.role == Company then
      set sc | sc in s.screens.Values && sc.applicationId in s.applications
               && OwnsListing(u, ListingOf(s, s.applications[sc.applicationId]))
    else
      set sc | sc in s.screens.Values && sc.applicationId in s.applications
               && s.applications[sc.applicationId].applicantId == u.id
  }

  function CreatedAt(sc: Screen): Timestamp {
    sc.createdAt
  }

  /** `list_screens`: the visible screens, each once, newest first. */
  method ListScreens(s: Store, requester: User) returns (r: seq<Screen>)
    ensures forall sc :: sc in r <==> sc in VisibleScreens(s, requester)
    ensures |r| == |VisibleScreens(s, requester)|
    ensures Ordering.NewestFirst(r, CreatedAt)
  {
    r := Ordering.SortNewestFirst(VisibleScreens(s, requester), CreatedAt);
    Ordering.SortedRowsAreTheRows(r, VisibleScreens(s, requester));
  }

  /** Whatever the screen list shows can also be opened one by one. */
  lemma VisibleScreenCanBeFetched(s: Store, requester: User, sc: Screen)
    requires KeysMatch(s) && ForeignKeysHold(s)
    requires sc in VisibleScreens(s, requester)
    ensures GetScreen(s, sc.id, requester) == Ok(sc)
  {
    var k :| k in s.screens && s.screens[k] == sc;
    assert sc.id == k;
    var a := s.applications[sc.applicationId];
    assert MayAccessApplication(requester, a, ListingOf(s, a));
  }
}

=== FILE: text.dfy ===
/** The few Python string operations the services rely on, over `seq<char>`. */
module Text {

  predicate IsUpperAscii(c: char) {
    'A' <= c <= 'Z'
  }

  /** `str.lower()` restricted to ASCII letters. */
  function LowerChar(c: char): (d: char)
    ensures IsUpperAscii(c) ==> d as int == c as int + 32
    ensures !IsUpperAscii(c) ==> d == c
    ensures !IsUpperAscii(d)
  {
    if IsUpperAscii(c) then (c as int + 32) as char else c
  }

  function Lower(s: string): (r: string)
    ensures |r| == |s|
    ensures forall i :: 0 <= i < |s| ==> r[i] == LowerChar(s[i])
  {
    seq(|s|, i requires 0 <= i < |s| => LowerChar(s[i]))
  }

  /** Lower-casing twice is lower-casing once. */
  lemma LowerIdempotent(s: string)
    ensures Lower(Lower(s)) == Lower(s)
  {
  }

  /** Text without capital letters is its own lower-case form. */
  lemma LowerOfLowercase(s: string)
    requires forall i :: 0 <= i < |s| ==> !IsUpperAscii(s[i])
    ensures Lower(s) == s
  {
  }

  /** `s.lstrip(c)`: drop every leading occurrence of `c`. */
  function LStrip(s: string, c: char): (r: string)
    ensures |r| <= |s|
    ensures r == s[|s| - |r|..]
    ensures r == [] || r[0] != c
    ensures forall i :: 0 <= i < |s| - |r| ==> s[i] == c
  {
    if s != [] && s[0] == c then
      var r := LStrip(s[1..], c);
      assert forall i :: 1 <= i < |s| - |r| ==> s[i] == s[1..][i - 1];
      r
    else s
  }

  /** Nothing to strip when `s` does not start with `c`. */
  lemma LStripNothing(s: string, c: char)
    requires s == [] || s[0] != c
    ensures LStrip(s, c) == s
  {
  }

  /** `s.rstrip(c)`: drop every trailing occurrence of `c`. */
  function RStrip(s: string, c: char): (r: string)
    ensures |r| <= |s|
    ensures r == s[..|r|]
    ensures r == [] || r[|r| - 1] != c
    ensures forall i :: |r| <= i < |s| ==> s[i] == c
  {
    if s != [] && s[|s| - 1] == c then RStrip(s[..|s| - 1], c) else s
  }

  /** The characters for which Python's `str.isspace()` holds, i.e. what
      `str.strip()` removes when called without arguments. */
  predicate IsSpace(c: char) {
    || ('\U{0009}' <= c <= '\U{000D}')
    || ('\U{001C}' <= c <= '\U{0020}')
    || c == '\U{0085}' || c == '\U{00A0}' || c == '\U{1680}'
    || ('\U{2000}' <= c <= '\U{200A}')
    || c == '\U{2028}' || c == '\U{2029}' || c == '\U{202F}' || c == '\U{205F}'
    || c == '\U{3000}'
  }

  /** `s.strip()`: drop leading and trailing whitespace. */
  function Strip(s: string): (r: string)
    ensures |r| <= |s|
  {
    if s == [] then []
    else if IsSpace(s[0]) then Strip(s[1..])
    else if IsSpace(s[|s| - 1]) then Strip(s[..|s| - 1])
    else s
  }

  /** True when `s.strip()` is the empty string. */
  predicate IsBlank(s: string) {
    forall i :: 0 <= i < |s| ==> IsSpace(s[i])
  }

  lemma {:induction false} StripEmptyIffBlank(s: string)
    ensures Strip(s) == [] <==> IsBlank(s)
    decreases |s|
  {
    if s == [] {
    } else if IsSpace(s[0]) {
      StripEmptyIffBlank(s[1..]);
      assert IsBlank(s) <==> IsBlank(s[1..]) by {
        if IsBlank(s[1..]) {
          forall i | 0 <= i < |s| ensures IsSpace(s[i]) {
            if i > 0 { assert s[i] == s[1..][i - 1]; }
          }
        }
      }
    } else {
      assert !IsSpace(s[0]);
      if IsSpace(s[|s| - 1]) {
        StripEmptyIffBlank(s[..|s| - 1]);
        assert !IsBlank(s[..|s| - 1]) by { assert s[..|s| - 1][0] == s[0]; }
      }
    }
  }

  /** Index of the last occurrence of `c` in `s`, -1 when absent (`str.rfind`). */
  function RFind(s: string, c: char): (i: int)
    ensures -1 <= i < |s|
    ensures i >= 0 ==> s[i] == c
    ensures forall j :: i < j < |s| ==> s[j] != c
  {
    if s == [] then -1
    else if s[|s| - 1] == c then |s| - 1
    else RFind(s[..|s| - 1], c)
  }

  /** Characters appended after the last occurrence do not move it. */
  lemma {:induction false} RFindSkipsTail(s: string, t: string, c: char)
    requires forall j :: 0 <= j < |t| ==> t[j] != c
    ensures RFind(s + t, c) == RFind(s, c)
    decreases |t|
  {
    if t == [] {
      assert s + t == s;
    } else {
      var t' := t[..|t| - 1];
      assert (s + t)[|s + t| - 1] == t[|t| - 1];
      assert (s + t)[..|s + t| - 1] == s + t';
      RFindSkipsTail(s, t', c);
    }
  }
}
